=== FILE: README.md ===
# Parish Way of the Cross site — a Dafny model of its pure rules

The site is a small React application for a parish's Way of the Cross routes:
a list of routes with filters, a map page that loads a route's KML track and
shows its stations, a page of recorded meditations with an audio player, and a
countdown on the home page. Most of the code is UI; this project models the
deterministic rules that sit inside the components and proves properties of
them.

- **Track loading** (`TrackLoader`, `Synthesis`, `Waypoints`, `Geo`): the
  feature list produced by the KML-to-GeoJSON converter becomes a track (the
  last line geometry, each position swapped from longitude-first to
  latitude-first) and waypoints (one per point feature, classified by keywords
  in its name; or, when there are none, a synthesised start, end and evenly
  spaced stations). A thrown error (a network failure, or a throwing feature)
  gives a fixed three-point fallback; malformed XML throws nothing and
  converts to a feature list of whatever placemarks remain.
  `Navigation` models choosing a road and going back to the list.
- **Route filtering** (`RouteFilters`, over the route table in `Roads`): a
  case-insensitive name substring, an exact destination, a loop flag and an
  inclusive distance range, each optional except the distance; single-field
  filter updates, reset, the expanded-road toggle and the list of distinct
  destinations.
- **Meditation player** (`Player`): the `MM:SS` time display and its read-back,
  and the state machine of the expanded station, the loaded station,
  play/pause and the playback position.
- **Countdown** (`Countdown`): a millisecond difference split into days, hours,
  minutes and seconds.
- **Road page** (`RoadList`, `Expand`): the one-slot "at most one expanded"
  toggle.

Supporting modules: `Wrappers` (`Option`, `Result`), `Text` (lower-casing,
substring search, decimal writing and reading, `padStart`), `Seqs` (filter,
subsequence, de-duplication) and `Arith` (division facts).

The code keeps the **last** line geometry of the feature list as the track:
each line feature overwrites the coordinates gathered so far.

JavaScript details written out: `a || b` on strings (`OrElse`: the empty
string also falls back), `%` on numbers as truncating remainder (`JsRem`),
`Math.floor` as `Floor`, `padStart` never truncating, and `[...new Set(xs)]`
keeping each element once, in the order of first occurrence (`Dedup`,
`Seqs.DedupFirstOccurrenceOrder`). `Math.ceil(len / 15)` is the
integer `(len + 14) / 15`, and the station label `Math.ceil(i / (len / 14))`
is taken as the exact rational ceiling of `14 * i / len`.

## Model

| member | source | states |
|---|---|---|
| Text.LowerStr | src/pages/sss.jsx:78 | `toLowerCase` keeps the length, leaves no capital letter, turns an ASCII or Polish capital (such as the 'Ś' of "Św.") into its own small letter and keeps every other character |
| Text.ContainsIffOccurs | src/pages/sss.jsx:78 | `includes` holds exactly when the searched text occurs at some position |
| Text.NatToString | src/pages/ConsiderationsPage.jsx:116 | `toString` of a whole number: at least one decimal digit, no leading zero, one digit below 10, two below 100, three or more from 100 |
| Text.IntToString | src/pages/ConsiderationsPage.jsx:116 | the digits read back to the number and have no leading zero except for 0 itself; a negative number gets a minus sign before the digits of its magnitude |
| Text.PadStart | src/pages/ConsiderationsPage.jsx:116 | `padStart`: the string itself when long enough, else fill characters before it up to the width; never truncates |
| Seqs.Filter | src/pages/sss.jsx:77-99 | `filter` gives a subsequence of the input whose elements satisfy the predicate, holding every satisfying element; `Seqs.FilterCount` fixes how often each one is kept |
| Seqs.FilterCount | src/pages/sss.jsx:77-99 | every occurrence of a satisfying element is kept and every other occurrence dropped: the result counts each value as often as the input when it satisfies the predicate, else never |
| Seqs.Dedup | src/pages/sss.jsx:24 | the spread `Set` has no duplicates, every element of the input and nothing else, in input order |
| Seqs.DedupFirstOccurrenceOrder | src/pages/sss.jsx:24 | elements come in the order of their first occurrences |
| Waypoints.DeterminePointType | src/pages/NavigationPage.jsx:226-235 | start exactly when the lower-cased name contains "start" or "początek"; end exactly when it contains neither but "koniec" or "meta"; station otherwise |
| Waypoints.DeterminePointTypeIgnoresCase | src/pages/NavigationPage.jsx:226-235 | names that lower-case alike are classified alike, and a name is classified like its lower-cased form |
| Waypoints.StartWinsOverEnd | src/pages/NavigationPage.jsx:228-231 | a name mentioning "start" or "początek" is a start even if it also mentions "koniec" or "meta" |
| Waypoints.ClassifierExamples | src/pages/NavigationPage.jsx:226-235 | "Start" is a start, "Koniec trasy" an end, "Stacja 5" and the empty name stations |
| Waypoints.MarkerIcon | src/pages/NavigationPage.jsx:273-284 | 'start' gives the start marker, 'end' the end marker, 'station' the station marker; the default marker exactly for every other tag; the location marker never |
| Waypoints.MarkerIconPerKind | src/pages/NavigationPage.jsx:273-284 | every waypoint kind gets its own marker, never the default: a waypoint shows the start, end or station marker exactly when it is a start, end or station |
| Geo.SwapAll | src/pages/NavigationPage.jsx:151-153 | `map(coord => [coord[1], coord[0]])`: one position per coordinate, in order, latitude and longitude exchanged (see also `TrackLoader.ExtractLastLine`, `TrackLoader.LoadSingleLine`) |
| Geo.SwapAllSameIff | src/pages/NavigationPage.jsx:151-153 | two coordinate lists give the same track exactly when they agree position by position up to the altitude |
| Geo.SwapRoundTrip | src/pages/NavigationPage.jsx:151 | swapping to latitude first is undone by swapping back (up to the dropped altitude) |
| TrackLoader.PointWaypoint | src/pages/NavigationPage.jsx:158-165 | a point's waypoint has the swapped position, the name or "Punkt", the description or "", and the kind of its name |
| TrackLoader.Step | src/pages/NavigationPage.jsx:148-167 | one iteration throws exactly on a throwing feature; a line replaces the track by its swapped coordinates, a point appends its waypoint, anything else changes nothing |
| TrackLoader.Extract | src/pages/NavigationPage.jsx:148-167 | the loop adds at most one waypoint per feature |
| TrackLoader.LoadNoFeatures | src/pages/NavigationPage.jsx:145-201 | an empty feature list loads as an empty track with no waypoints, without falling back |
| TrackLoader.ExtractFailsIff | src/pages/NavigationPage.jsx:148-167 | the feature loop throws exactly when some feature is a multi-line string without lines or a point without properties |
| TrackLoader.ExtractNoLine | src/pages/NavigationPage.jsx:145-155 | without line features the track stays empty |
| TrackLoader.ExtractLastLine | src/pages/NavigationPage.jsx:148-155 | the last line feature gives the track: same length and order, each position swapped; a multi-line string gives its first line |
| TrackLoader.ExtractPoints | src/pages/NavigationPage.jsx:157-166 | the waypoints are the point features, in feature order, one each |
| TrackLoader.ExtractHasPointsIff | src/pages/NavigationPage.jsx:157-170 | extraction yields points exactly when a point feature is present |
| TrackLoader.LoadTrack | src/pages/NavigationPage.jsx:145-219 | the load falls back exactly when fetching fails or the loop throws, and then yields the fallback track and waypoints |
| TrackLoader.LoadSucceeds | src/pages/NavigationPage.jsx:169-201 | without a throwing feature the track is the extracted one; the waypoints are the extracted points unless there are none and the track is not empty, when they are synthesised with start first, end last, stations between |
| TrackLoader.LoadSingleLine | src/pages/NavigationPage.jsx:148-198 | a file with a single line string yields its swapped coordinates and synthesised waypoints |
| TrackLoader.FallbackShape | src/pages/NavigationPage.jsx:207-219 | the fallback is three track points with a start, a station and an end placed on them in order |
| Synthesis.Stride | src/pages/NavigationPage.jsx:181 | the stride is the least integer r with len <= 15 r, and at least 1 for a non-empty track |
| Synthesis.StationNumber | src/pages/NavigationPage.jsx:184 | the label number is the least n with 14 i <= n len |
| Synthesis.StationIndices | src/pages/NavigationPage.jsx:180-189 | the station indices are strictly increasing and are exactly the interior indices that are multiples of the stride |
| Synthesis.Synthesize | src/pages/NavigationPage.jsx:170-198 | the synthesised list is a start at the first position, one station per station index in order, an end at the last position |
| Synthesis.SynthesizeStationPositions | src/pages/NavigationPage.jsx:180-189 | each waypoint between the first and last is a station at the track position of the matching station index |
| Synthesis.SynthesizeShape | src/pages/NavigationPage.jsx:170-198 | at least two waypoints, start first at the first point, end last at the last point, stations between on interior points |
| Synthesis.StationNumberRange | src/pages/NavigationPage.jsx:184 | every interior label number lies in 1..14 |
| Synthesis.StationNumberMonotone | src/pages/NavigationPage.jsx:184 | label numbers never decrease along the track |
| Synthesis.ShortTrackStationsEverywhere | src/pages/NavigationPage.jsx:180-181 | for 2..15 points every interior index becomes a station |
| Synthesis.StationCountBelow | src/pages/NavigationPage.jsx:180-189 | the loop up to j keeps (j - 1) / stride indices |
| Synthesis.ThirtyPointTrack | src/pages/NavigationPage.jsx:180-189 | a 30-point track gets 14 stations |
| Navigation.SelectRoad | src/pages/NavigationPage.jsx:238-242 | choosing a road hides the list, selects it and shows the loaded track and waypoints (the fallback pair on failure); the error message is set exactly on a fallback |
| Navigation.BackToList | src/pages/NavigationPage.jsx:245-250 | going back shows the list with no road, track or waypoints, and keeps the error message |
| Navigation.SelectThenBack | src/pages/NavigationPage.jsx:238-250 | choosing a road and going back returns to the initial view, except for a load failure's message |
| RouteFilters.ApplyFilters | src/pages/sss.jsx:72-101 | the result is a subsequence of the roads in table order, and a road is in it exactly when it satisfies every active filter |
| RouteFilters.ApplyFiltersChain | src/pages/sss.jsx:73-99 | the four successive passes equal a single pass by the conjunction of the active filters |
| RouteFilters.EmptyDistanceRange | src/pages/sss.jsx:97-99 | a minimum above the maximum keeps no road |
| RouteFilters.DefaultFiltersKeepAll | src/pages/sss.jsx:12-18 | the default filters keep every road of 0..100 km |
| RouteFilters.DefaultFiltersShowWholeTable | src/assets/data/roadsData.js:36-51 | the default filters keep the whole route table |
| RouteFilters.NameFilterIgnoresCase | src/pages/sss.jsx:76-80 | name filter texts that lower-case alike keep the same roads |
| RouteFilters.ChangeFilter | src/pages/sss.jsx:52-57 | a filter change sets the named field and keeps every other field |
| RouteFilters.ChangeFilterOverrideCommute | src/pages/sss.jsx:52-57 | a later change of the same field overrides an earlier one; changes of different fields commute |
| RouteFilters.HandleFilterChange | src/pages/sss.jsx:36-57 | the filters become the old ones with the named field changed; the list then holds exactly the table's roads that satisfy them, in table order; the panel state is kept |
| RouteFilters.ListMatchesFiltersInvariant | src/pages/sss.jsx:12-69 | the list shown is always the table filtered by the filters shown: initially and after every handler |
| RouteFilters.ResetFilters | src/pages/sss.jsx:60-69 | reset restores the default filters and a list equal to filtering the table by them |
| RouteFilters.ToggleRoadExpand | src/pages/sss.jsx:42-44 | the open road closes, any other opens; filters and list are untouched |
| RouteFilters.ToggleFilters | src/pages/sss.jsx:47-49 | the filter panel flips and nothing else changes |
| RouteFilters.UniqueDestinations | src/pages/sss.jsx:24 | the destinations list has no duplicates, has every road's destination and nothing else |
| Expand.Toggle | src/pages/RoadPage.jsx:36-42 | clicking the open entry closes it; clicking any other, or from nothing open, opens it |
| Expand.ToggleTwice | src/pages/RoadPage.jsx:36-42 | two clicks on an entry that was not open leave nothing open; on the open entry they leave it open |
| Expand.ToggleOpensOnlyClicked | src/pages/sss.jsx:42-44 | after a click the only possibly open entry is the clicked one |
| RoadList.ToggleRoadExpand | src/pages/RoadPage.jsx:36-42 | the toggle on the road page; the road list is never changed |
| RoadList.ClicksKeepRoads | src/pages/RoadPage.jsx:8-42 | after any run of clicks the road list is the initial one and the only possibly open panel is the last road clicked |
| Player.FormatTime | src/pages/ConsiderationsPage.jsx:113-117 | the display has at least five characters; for a non-negative time it is the padded minutes and the padded seconds of its whole seconds around a colon |
| Player.FloorParts | src/pages/ConsiderationsPage.jsx:113-115 | for a non-negative time, minutes and seconds are the quotient and remainder of its whole seconds by 60 |
| Player.FormatTimeFields | src/pages/ConsiderationsPage.jsx:113-117 | the display is the padded minutes, a colon, the padded seconds; seconds take two digits, minutes at least two and all of them from 100 on |
| Player.FormatTimeShape | src/pages/ConsiderationsPage.jsx:116 | below 6000 s the display has five characters with the colon at index 2 |
| Player.FormatTimeRoundTrip | src/pages/ConsiderationsPage.jsx:113-117 | reading the display back gives the whole seconds formatted |
| Player.ClockRoundTrip | src/pages/ConsiderationsPage.jsx:116 | reading back the two fields of n seconds gives n |
| Player.ToggleStationExpand | src/pages/ConsiderationsPage.jsx:73-89 | the open station closes with nothing else changed; another station opens and, unless loaded already, is loaded paused at 0 |
| Player.TogglePlayPause | src/pages/ConsiderationsPage.jsx:92-101 | with audio mounted play/pause flips and nothing else changes; without, nothing changes |
| Player.TogglePlayPauseTwice | src/pages/ConsiderationsPage.jsx:92-101 | play/pause twice restores the state |
| Player.TimeUpdate | src/pages/ConsiderationsPage.jsx:51-53 | the position follows playback and nothing else changes |
| Player.Ended | src/pages/ConsiderationsPage.jsx:55-58 | at the end playback stops at 0 with the panel and station kept |
| Player.PanelShowsLoadedInvariant | src/pages/ConsiderationsPage.jsx:73-101 | an open panel always belongs to the loaded station, initially and after every transition |
| Player.CurrentStation | src/pages/ConsiderationsPage.jsx:120-122 | none exactly when no station has the loaded id; otherwise a listed station with that id |
| Player.CurrentStationIsFirst | src/pages/ConsiderationsPage.jsx:120-122 | of several stations with the loaded id the first is returned |
| Countdown.Decompose | src/pages/HomePage.jsx:20-25 | hours below 24, minutes and seconds below 60 |
| Countdown.CalculateTimeLeft | src/pages/HomePage.jsx:14-26 | a positive difference (target minus now plus one hour) replaces the display with one that stands for its whole seconds; otherwise the display is kept |
| Countdown.DecomposeTotal | src/pages/HomePage.jsx:20-25 | the fields stand for the difference's whole seconds: sum in ms <= d < sum in ms + 1000 |
| Countdown.DecomposeCompose | src/pages/HomePage.jsx:20-25 | decomposing a well-formed display's milliseconds, plus any fraction of a second, gives the display back |
| Countdown.LexLeIffTotal | src/pages/HomePage.jsx:20-25 | for well-formed displays the field-by-field order is the order of the time they stand for |
| Countdown.RunCountdownWellFormed | src/pages/HomePage.jsx:6-26 | from the all-zero initial display, any sequence of clock readings keeps the display well-formed; after a reading with a positive difference it stands for that difference's whole seconds |
| Countdown.RunCountdownStaysInitial | src/pages/HomePage.jsx:6-26 | while no reading leaves a positive difference the initial all-zero display stays |
| Countdown.CountdownNonIncreasing | src/pages/HomePage.jsx:14-26 | a later clock reading never shows more time left |

## Left out

- Fetching the track file, `DOMParser` and the KML-to-GeoJSON conversion: network and third-party parsing; the model starts from the converted feature list, and a thrown error there (a network failure rejecting `fetch`) is the `Unavailable` source. Malformed XML is not such an error: `DOMParser` returns a document with a `parsererror` element, which converts to a feature list, `Parsed(…)`, of whatever placemarks it still holds. A response with an error status does not make `fetch` throw: its body converts to an empty feature list, `Parsed([])`, which loads as an empty track with no waypoints and no error message (`TrackLoader.LoadNoFeatures`).
- The map page's `loading` flag, geolocation watching, `flyTo`/`fitBounds` and the Leaflet icon objects: browser and map-library side effects; markers are an enumeration.
- The race between two quick road selections whose loads finish out of order: concurrency in asynchronous callbacks; `Navigation.SelectRoad` is a choice followed by the completion of its own load.
- Synthesis.StationNumber: the label is the exact rational ceiling of 14 i / len, not the floating-point `Math.ceil(i / (len / 14))`, which can differ by one where 14 i / len is an integer.
- Floating-point coordinates: positions are opaque reals that are only swapped.
- Player.FormatTime: `NaN` and infinite inputs are not modelled; the time is a real number.
- The seek handler and the progress-bar percentages: floating-point UI arithmetic.
- The audio element's `play` and `pause` calls: side effects; the mounted audio element is a boolean parameter.
- Reading the clock and parsing the target date in the countdown: the target and the current time are integer millisecond parameters.
- Text.LowerStr: covers ASCII and the Polish capital letters only, not the whole Unicode lower-case mapping.
- The distance bounds come from range inputs limited to 0..100 and read with `parseInt`, so the page only ever sets integers in 0..100; the model allows any integers.
- The map page built on OpenLayers (`elo.jsx`), the navigation bar, the home button, the router and the application shell: map wiring, routing and layout.
- File download anchors and fade-in animations: DOM side effects.

=== FILE: arith.dfy ===
/** Facts about integer products and Euclidean division used by the
    station numbering and the countdown. */
module Arith {
  /** A product with a positive factor preserves strict order. */
  lemma MulCancel(x: int, y: int, c: int)
    requires c > 0 && x * c < y * c
    ensures x < y
  {
    assert (y - x) * c == y * c - x * c;
  }

  /** Quotient and remainder are determined by n = q * d + r with 0 <= r < d. */
  lemma DivUnique(n: int, d: int, q: int, r: int)
    requires d > 0 && 0 <= r < d && n == q * d + r
    ensures n / d == q && n % d == r
  {
    var q', r' := n / d, n % d;
    assert n == q' * d + r';
    assert (q - q') * d == r' - r;
    MulCancel(q - q', 1, d);
    MulCancel(-1, q - q', d);
  }

  /** A non-negative product of a non-negative factor keeps weak order. */
  lemma MulMono(x: int, y: int, c: int)
    requires c >= 0 && x <= y
    ensures x * c <= y * c
  {
    assert y * c - x * c == (y - x) * c;
  }

  /** Dividing by `a * b` is dividing by `a`, then by `b`; and the part of `d`
      below `a * b`, counted in units of `a`, is the quotient by `a` taken
      modulo `b`. */
  lemma DivDiv(d: int, a: int, b: int)
    requires d >= 0 && a > 0 && b > 0
    ensures d / (a * b) == d / a / b
    ensures (d % (a * b)) / a == (d / a) % b
  {
    var q, r := d / a, d % a;
    var q2, r2 := q / b, q % b;
    assert d == q * a + r;
    assert q == q2 * b + r2;
    assert q * a == q2 * (a * b) + r2 * a;
    MulMono(r2, b - 1, a);
    assert r2 * a + r < a * b;
    DivUnique(d, a * b, q2, r2 * a + r);
    DivUnique(r2 * a + r, a, r2, r);
  }

  /** Counting up by one adds one to the quotient exactly at a multiple. */
  lemma DivStep(m: nat, d: nat)
    requires d > 0
    ensures (m + 1) / d == m / d + (if (m + 1) % d == 0 then 1 else 0)
  {
    var q, r := m / d, m % d;
    if r == d - 1 {
      DivUnique(m + 1, d, q + 1, 0);
    } else {
      DivUnique(m + 1, d, q, r + 1);
    }
  }
}

=== FILE: countdown.dfy ===
/** The home page countdown: the milliseconds left until the event, shifted by
    one hour, shown as days, hours, minutes and seconds. Timestamps are whole
    milliseconds; the clock read is a parameter. */
module Countdown {
  import opened Arith

  const MsPerSecond: nat := 1000
  const MsPerMinute: nat := 60 * MsPerSecond
  const MsPerHour: nat := 60 * MsPerMinute
  const MsPerDay: nat := 24 * MsPerHour

  /** The hour added to the difference before it is shown. */
  const HourShift: nat := MsPerHour

  datatype TimeLeft = TimeLeft(days: nat, hours: nat, minutes: nat, seconds: nat)

  /** The displayed state before the first computation. */
  const InitialTimeLeft := TimeLeft(0, 0, 0, 0)

  /** Hours, minutes and seconds within their clock ranges. */
  predicate WellFormed(t: TimeLeft) {
    t.hours < 24 && t.minutes < 60 && t.seconds < 60
  }

  /** The number of whole seconds a display stands for. */
  function TotalSeconds(t: TimeLeft): nat {
    t.days * 86400 + t.hours * 3600 + t.minutes * 60 + t.seconds
  }

  /** `a` shows no more time than `b`, compared field by field from days. */
  predicate LexLe(a: TimeLeft, b: TimeLeft) {
    a.days < b.days || (a.days == b.days &&
      (a.hours < b.hours || (a.hours == b.hours &&
        (a.minutes < b.minutes || (a.minutes == b.minutes && a.seconds <= b.seconds)))))
  }

  /** The four fields of a positive difference `d`, each a floor of a
      remainder over a unit; for `d > 0` JavaScript's `%` and `Math.floor`
      agree with Euclidean division. */
  function Decompose(d: nat): (r: TimeLeft)
    ensures WellFormed(r)
  {
    TimeLeft(
      d / MsPerDay,
      (d % MsPerDay) / MsPerHour,
      (d % MsPerHour) / MsPerMinute,
      (d % MsPerMinute) / MsPerSecond)
  }

  /** `calculateTimeLeft`: a positive difference replaces the display; once the
      difference is zero or negative the previous display stays. */
  function CalculateTimeLeft(prev: TimeLeft, target: int, now: int): (r: TimeLeft)
    ensures target - now + HourShift <= 0 ==> r == prev
    ensures target - now + HourShift > 0 ==>
      WellFormed(r) && TotalSeconds(r) == (target - now + HourShift) / MsPerSecond
  {
    var difference := target - now + HourShift;
    if difference > 0 then DecomposeTotal(difference); Decompose(difference) else prev
  }

  /** The display after the page computes at each clock reading in `nows`, in
      order, starting from the initial all-zero display. */
  function RunCountdown(target: int, nows: seq<int>): TimeLeft
    decreases |nows|
  {
    if |nows| == 0 then InitialTimeLeft
    else CalculateTimeLeft(RunCountdown(target, nows[..|nows| - 1]), target, nows[|nows| - 1])
  }

  /** Whatever clock readings come, the display stays well-formed, and when the
      last reading left a positive difference the display stands for its whole
      seconds. */
  lemma {:induction false} RunCountdownWellFormed(target: int, nows: seq<int>)
    ensures WellFormed(RunCountdown(target, nows))
    ensures |nows| > 0 && target - nows[|nows| - 1] + HourShift > 0 ==>
      TotalSeconds(RunCountdown(target, nows)) == (target - nows[|nows| - 1] + HourShift) / MsPerSecond
    decreases |nows|
  {
    if |nows| > 0 {
      RunCountdownWellFormed(target, nows[..|nows| - 1]);
    }
  }

  /** While no reading has left a positive difference, the initial display
      stays. */
  lemma {:induction false} RunCountdownStaysInitial(target: int, nows: seq<int>)
    requires forall j :: 0 <= j < |nows| ==> target - nows[j] + HourShift <= 0
    ensures RunCountdown(target, nows) == InitialTimeLeft
    decreases |nows|
  {
    if |nows| > 0 {
      var init := nows[..|nows| - 1];
      assert forall j :: 0 <= j < |init| ==> init[j] == nows[j];
      RunCountdownStaysInitial(target, init);
    }
  }

  /** The fields together stand for the whole seconds in `d`. */
  lemma DecomposeTotal(d: nat)
    ensures TotalSeconds(Decompose(d)) == d / MsPerSecond
    ensures TotalSeconds(Decompose(d)) * MsPerSecond <= d < TotalSeconds(Decompose(d)) * MsPerSecond + MsPerSecond
  {
    var s := d / 1000;
    var u, v := s / 60, s / 3600;
    DivDiv(d, 1000, 86400);
    DivDiv(d, 1000, 3600);
    DivDiv(d, 1000, 60);
    DivDiv(d, MsPerHour, 24);
    DivDiv(d, MsPerMinute, 60);
    DivDiv(d, MsPerSecond, 60);
    DivDiv(s, 60, 60);
    DivDiv(s, 3600, 24);
    assert Decompose(d) == TimeLeft(v / 24, v % 24, u % 60, s % 60);
    assert s == u * 60 + s % 60;
    assert u == v * 60 + u % 60;
    assert v == (v / 24) * 24 + v % 24;
  }

  /** Formatting a well-formed display's seconds, plus any fraction of a
      second, gives the display back. */
  lemma DecomposeCompose(t: TimeLeft, ms: nat)
    requires WellFormed(t) && ms < MsPerSecond
    ensures Decompose(TotalSeconds(t) * MsPerSecond + ms) == t
  {
    var n := TotalSeconds(t) * MsPerSecond + ms;
    DivUnique(n, MsPerSecond, TotalSeconds(t), ms);
    DecomposeTotal(n);
    LexLeIffTotal(Decompose(n), t);
    LexLeIffTotal(t, Decompose(n));
  }

  /** Among well-formed displays the field-by-field order is the order of the
      time they stand for. */
  lemma LexLeIffTotal(a: TimeLeft, b: TimeLeft)
    requires WellFormed(a) && WellFormed(b)
    ensures LexLe(a, b) <==> TotalSeconds(a) <= TotalSeconds(b)
  {
  }

  /** A later clock reading never shows more time left. */
  lemma CountdownNonIncreasing(prev: TimeLeft, target: int, now1: int, now2: int)
    requires now1 <= now2 && target - now2 + HourShift > 0
    ensures LexLe(CalculateTimeLeft(prev, target, now2), CalculateTimeLeft(prev, target, now1))
  {
    var a, b := CalculateTimeLeft(prev, target, now2), CalculateTimeLeft(prev, target, now1);
    LexLeIffTotal(a, b);
  }
}

=== FILE: expand.dfy ===
/** The "at most one expanded" toggle behind the road and station lists: the
    state holds the id of the one open entry, or nothing. */
module Expand {
  import opened Wrappers

  /** Clicking entry `id`: closes it when it is the open one, otherwise opens it
      (closing whichever other entry was open). */
  function Toggle<T(==)>(expanded: Option<T>, id: T): (r: Option<T>)
    ensures expanded == Some(id) ==> r.None?
    ensures expanded != Some(id) ==> r == Some(id)
  {
    if expanded == Some(id) then None else Some(id)
  }

  /** Clicking the same entry twice closes it when it was not open before, and
      leaves it open when it was. */
  lemma ToggleTwice<T>(expanded: Option<T>, id: T)
    ensures expanded != Some(id) ==> Toggle(Toggle(expanded, id), id).None?
    ensures expanded == Some(id) ==> Toggle(Toggle(expanded, id), id) == expanded
  {
  }

  /** After a click the open entry, if any, is the clicked one. */
  lemma ToggleOpensOnlyClicked<T>(expanded: Option<T>, id: T)
    ensures Toggle(expanded, id).Some? ==> Toggle(expanded, id).value == id
  {
  }
}

=== FILE: geo.dfy ===
/** Coordinates. GeoJSON (and the KML it is converted from) writes a position
    longitude first; the map layer wants latitude first. Coordinates are only
    ever reordered, never computed with, so their values are opaque reals. */
module Geo {
  import opened Wrappers

  /** A GeoJSON position `[lon, lat]` or `[lon, lat, alt]`. */
  datatype GeoPos = GeoPos(lon: real, lat: real, alt: Option<real>)

  /** A map position `[lat, lon]`. */
  datatype LatLng = LatLng(lat: real, lng: real)

  /** `[coord[1], coord[0]]`: swap to latitude first, dropping any altitude. */
  function ToLatLng(p: GeoPos): LatLng {
    LatLng(p.lat, p.lon)
  }

  /** The GeoJSON position, without altitude, that a map position came from. */
  function ToGeoPos(q: LatLng): GeoPos {
    GeoPos(q.lng, q.lat, None)
  }

  /** Swapping is undone by swapping back: exactly for map positions, and up to
      the dropped altitude for GeoJSON positions. */
  lemma SwapRoundTrip(p: GeoPos, q: LatLng)
    ensures ToLatLng(ToGeoPos(q)) == q
    ensures ToGeoPos(ToLatLng(p)) == p.(alt := None)
    ensures ToLatLng(p) == ToLatLng(p.(alt := None))
  {
  }

  /** `coords.map(coord => [coord[1], coord[0]])`: one map position per GeoJSON
      position, in order, with latitude and longitude exchanged. */
  function SwapAll(coords: seq<GeoPos>): (r: seq<LatLng>)
    ensures |r| == |coords|
    ensures forall i :: 0 <= i < |r| ==> r[i].lat == coords[i].lat && r[i].lng == coords[i].lon
  {
    seq(|coords|, i requires 0 <= i < |coords| => ToLatLng(coords[i]))
  }

  /** Two coordinate lists give the same track exactly when they have the same
      length and agree position by position up to the altitude. */
  lemma SwapAllSameIff(a: seq<GeoPos>, b: seq<GeoPos>)
    ensures SwapAll(a) == SwapAll(b) <==>
      |a| == |b| && forall i :: 0 <= i < |a| ==> a[i].(alt := None) == b[i].(alt := None)
  {
    if |a| == |b| && forall i :: 0 <= i < |a| ==> a[i].(alt := None) == b[i].(alt := None) {
      forall i | 0 <= i < |a|
        ensures SwapAll(a)[i] == SwapAll(b)[i]
      {
        assert a[i].(alt := None) == b[i].(alt := None);
      }
    }
    if SwapAll(a) == SwapAll(b) {
      forall i | 0 <= i < |a|
        ensures a[i].(alt := None) == b[i].(alt := None)
      {
        assert SwapAll(a)[i] == SwapAll(b)[i];
      }
    }
  }
}

=== FILE: navigation.dfy ===
/** The navigation page's view state around the loader: choosing a road shows
    the map with the loaded track; going back to the list clears it. */
module Navigation {
  import opened Wrappers
  import opened Geo
  import opened Waypoints
  import opened Roads
  import opened TrackLoader

  datatype NavState = NavState(
    showList: bool,
    selectedRoad: Option<Road>,
    trackData: Option<seq<LatLng>>,
    waypoints: seq<Waypoint>,
    error: Option<string>)

  const InitialNav := NavState(true, None, None, [], None)

  const LoadErrorMessage := "Nie udało się wczytać śladu KML"

  /** `handleSelectRoad` followed by the completion of its load, with `src` what
      fetching the road's track file gave. The error message is set only when
      the load fell back; a success leaves any earlier message in place. */
  function SelectRoad(s: NavState, road: Road, src: Source): (r: NavState)
    ensures !r.showList && r.selectedRoad == Some(road)
    ensures r.trackData == Some(LoadTrack(src).track) && r.waypoints == LoadTrack(src).waypoints
    ensures LoadTrack(src).failed ==>
      r.trackData == Some(FallbackTrack) && r.waypoints == FallbackWaypoints
      && r.error == Some(LoadErrorMessage)
    ensures !LoadTrack(src).failed ==> r.error == s.error
  {
    var loaded := LoadTrack(src);
    NavState(false, Some(road), Some(loaded.track), loaded.waypoints,
             if loaded.failed then Some(LoadErrorMessage) else s.error)
  }

  /** `handleBackToList`: the list is shown again, no road is selected and the
      track and waypoints are cleared; the error message is left as it was. */
  function BackToList(s: NavState): (r: NavState)
    ensures r.showList && r.selectedRoad.None? && r.trackData.None? && r.waypoints == []
    ensures r.error == s.error
    ensures r == InitialNav.(error := s.error)
  {
    s.(showList := true, selectedRoad := None, trackData := None, waypoints := [])
  }

  /** Going back after choosing a road leaves no trace of the road, its track or
      its waypoints: only a load failure's message can remain. */
  lemma SelectThenBack(s: NavState, road: Road, src: Source)
    ensures BackToList(SelectRoad(s, road, src)) ==
      InitialNav.(error := if LoadTrack(src).failed then Some(LoadErrorMessage) else s.error)
  {
  }
}

=== FILE: player.dfy ===
/** The meditations page: `MM:SS` time display and the state machine of the
    expanded station and its audio player. */
module Player {
  import opened Wrappers
  import opened Text

  // ---- time display ----

  /** `Math.floor` on a real. */
  function Floor(x: real): int {
    x.Floor
  }

  /** Truncation toward zero. */
  function Trunc(x: real): int {
    if x >= 0.0 then x.Floor else -((-x).Floor)
  }

  /** JavaScript's `x % d`: the remainder of truncating division, with the sign
      of `x`. */
  function JsRem(x: real, d: real): real
    requires d != 0.0
  {
    x - d * Trunc(x / d) as real
  }

  /** `formatTime`: whole minutes and whole seconds of a number of seconds,
      each written in decimal and left-padded with '0' to two characters. */
  function FormatTime(seconds: real): (r: string)
    ensures |r| >= 5
    ensures seconds >= 0.0 ==> r == MinutesField(seconds.Floor) + ":" + SecondsField(seconds.Floor)
  {
    var mins := Floor(seconds / 60.0);
    var secs := Floor(JsRem(seconds, 60.0));
    var r := PadStart(IntToString(mins), 2, '0') + ":" + PadStart(IntToString(secs), 2, '0');
    if seconds >= 0.0 then FloorParts(seconds); r else r
  }

  /** For a non-negative time, minutes and seconds are the quotient and the
      remainder of its whole seconds by 60. */
  lemma FloorParts(seconds: real)
    requires seconds >= 0.0
    ensures Floor(seconds / 60.0) == seconds.Floor / 60
    ensures Floor(JsRem(seconds, 60.0)) == seconds.Floor % 60
  {
    var n := seconds.Floor;
    var q, r := n / 60, n % 60;
    assert n == 60 * q + r;
    assert (q as real) <= seconds / 60.0 < (q + 1) as real;
    assert Trunc(seconds / 60.0) == q;
    assert JsRem(seconds, 60.0) == seconds - 60.0 * q as real;
    assert r as real <= seconds - 60.0 * q as real < (r + 1) as real;
  }

  /** The two padded fields of a formatted non-negative time. */
  function MinutesField(n: nat): string {
    PadStart(NatToString(n / 60), 2, '0')
  }

  function SecondsField(n: nat): string {
    PadStart(NatToString(n % 60), 2, '0')
  }

  /** A non-negative time shows its minutes, a colon and its seconds, both at
      least two digits; minutes of three or more digits are kept whole. */
  lemma FormatTimeFields(seconds: real)
    requires seconds >= 0.0
    ensures var n := seconds.Floor;
      && 0 <= n % 60 < 60
      && (n / 60) * 60 + n % 60 == n
      && FormatTime(seconds) == MinutesField(n) + ":" + SecondsField(n)
      && |SecondsField(n)| == 2
      && |MinutesField(n)| == (if n < 6000 then 2 else |NatToString(n / 60)|)
      && (n >= 6000 ==> MinutesField(n) == NatToString(n / 60))
  {
    FloorParts(seconds);
  }

  /** Below 100 minutes the display is exactly five characters, `MM:SS`. */
  lemma FormatTimeShape(seconds: real)
    requires 0.0 <= seconds < 6000.0
    ensures |FormatTime(seconds)| == 5 && FormatTime(seconds)[2] == ':'
  {
    var n := seconds.Floor;
    FormatTimeFields(seconds);
    assert n < 6000;
    ShortFields(n);
  }

  lemma ShortFields(n: nat)
    requires n < 6000
    ensures |MinutesField(n) + ":" + SecondsField(n)| == 5
    ensures (MinutesField(n) + ":" + SecondsField(n))[2] == ':'
  {
    var m := n / 60;
    assert m < 100;
    var ms := NatToString(m);
    assert |ms| <= 2;
    var a := PadStart(ms, 2, '0');
    assert |a| == 2;
    var b := PadStart(NatToString(n % 60), 2, '0');
    assert |b| == 2;
    var t := a + ":" + b;
    assert t[2] == ':';
  }

  /** The position of the first `c` in `t`, if any. */
  function IndexOf(t: string, c: char): (r: Option<nat>)
    ensures r.Some? ==> r.value < |t| && t[r.value] == c && c !in t[..r.value]
    ensures r.None? ==> c !in t
  {
    if |t| == 0 then None
    else if t[0] == c then Some(0)
    else match IndexOf(t[1..], c)
      case None => None
      case Some(k) => Some(k + 1)
  }

  /** Reads an `M...M:SS` display back into a number of seconds. */
  function ParseClock(t: string): Option<nat> {
    match IndexOf(t, ':')
    case None => None
    case Some(k) => ParseFields(t[..k], t[k + 1..])
  }

  /** Minutes and seconds fields, when both are digit strings. */
  function ParseFields(mm: string, ss: string): Option<nat> {
    if AllDigits(mm) && AllDigits(ss) then Some(ParseDigits(mm) * 60 + ParseDigits(ss)) else None
  }

  /** Left-padding with zeros keeps the digits' value. */
  lemma PadZerosValue(s: string)
    requires AllDigits(s)
    ensures AllDigits(PadStart(s, 2, '0'))
    ensures ParseDigits(PadStart(s, 2, '0')) == ParseDigits(s)
  {
    if |s| < 2 {
      ParseLeadingZeros(2 - |s|, s);
    }
  }

  /** Reading the display back gives the whole seconds that were formatted. */
  lemma FormatTimeRoundTrip(seconds: real)
    requires seconds >= 0.0
    ensures ParseClock(FormatTime(seconds)) == Some(seconds.Floor)
  {
    FormatTimeFields(seconds);
    ClockRoundTrip(seconds.Floor);
  }

  /** Reading back the fields of `n` seconds gives `n`. */
  lemma ClockRoundTrip(n: nat)
    ensures ParseClock(MinutesField(n) + ":" + SecondsField(n)) == Some(n)
  {
    var a, b := MinutesField(n), SecondsField(n);
    assert AllDigits(a) && ParseDigits(a) == n / 60 by {
      PadZerosValue(NatToString(n / 60));
      ParseNatToString(n / 60);
    }
    assert AllDigits(b) && ParseDigits(b) == n % 60 by {
      PadZerosValue(NatToString(n % 60));
      ParseNatToString(n % 60);
    }
    assert ParseFields(a, b) == Some(n) by {
      FieldsValue(a, b);
    }
    assert ParseClock(a + ":" + b) == ParseFields(a, b) by {
      ParseClockFields(a, b);
    }
  }

  /** Two digit strings read as minutes times 60 plus seconds. */
  lemma FieldsValue(a: string, b: string)
    requires AllDigits(a) && AllDigits(b)
    ensures ParseFields(a, b) == Some(ParseDigits(a) * 60 + ParseDigits(b))
  {
  }

  /** A display whose minutes field has no colon splits at the colon after it. */
  lemma ParseClockFields(a: string, b: string)
    requires AllDigits(a)
    ensures ParseClock(a + ":" + b) == ParseFields(a, b)
  {
    assert IndexOf(a + ":" + b, ':') == Some(|a|) by {
      DigitsHaveNoColon(a);
      IndexOfAfter(a, b, ':');
    }
    ParseClockSplit(a, b);
  }

  lemma DigitsHaveNoColon(a: string)
    requires AllDigits(a)
    ensures ':' !in a
  {
  }

  /** With the first colon right after `a`, the fields are `a` and `b`. */
  lemma ParseClockSplit(a: string, b: string)
    requires IndexOf(a + ":" + b, ':') == Some(|a|)
    ensures ParseClock(a + ":" + b) == ParseFields(a, b)
  {
    var t := a + ":" + b;
    assert t[..|a|] == a;
    assert t[|a| + 1..] == b;
  }

  /** The first `c` in `a + [c] + b` is the one after `a`, when `a` has none. */
  lemma {:induction false} IndexOfAfter(a: string, b: string, c: char)
    requires c !in a
    ensures IndexOf(a + [c] + b, c) == Some(|a|)
    decreases |a|
  {
    var t := a + [c] + b;
    if |a| > 0 {
      assert t[1..] == a[1..] + [c] + b;
      IndexOfAfter(a[1..], b, c);
    }
  }

  // ---- the player ----

  datatype Station = Station(id: nat, name: string, audioSrc: string, duration: nat)

  /** The open station panel, the station loaded into the audio element, whether
      it plays and its playback position. */
  datatype PlayerState = PlayerState(
    expandedStationId: Option<nat>,
    currentlyPlaying: Option<nat>,
    isPlaying: bool,
    currentTime: real)

  const InitialPlayer := PlayerState(None, None, false, 0.0)

  /** `toggleStationExpand`: clicking the open station closes its panel and
      changes nothing else. Clicking another station opens it; if it is not the
      loaded one, it is loaded, paused, at position 0. */
  function ToggleStationExpand(s: PlayerState, stationId: nat): (r: PlayerState)
    ensures s.expandedStationId == Some(stationId) ==>
      r == s.(expandedStationId := None)
    ensures s.expandedStationId != Some(stationId) ==>
      r.expandedStationId == Some(stationId) && r.currentlyPlaying == Some(stationId)
    ensures s.expandedStationId != Some(stationId) && s.currentlyPlaying != Some(stationId) ==>
      !r.isPlaying && r.currentTime == 0.0
    ensures s.expandedStationId != Some(stationId) && s.currentlyPlaying == Some(stationId) ==>
      r.isPlaying == s.isPlaying && r.currentTime == s.currentTime
  {
    if s.expandedStationId == Some(stationId) then s.(expandedStationId := None)
    else
      var shown := s.(expandedStationId := Some(stationId));
      if s.currentlyPlaying != Some(stationId)
      then shown.(currentlyPlaying := Some(stationId), isPlaying := false, currentTime := 0.0)
      else shown
  }

  /** `togglePlayPause`: with the audio element mounted, flips between playing
      and paused and changes nothing else; without it, does nothing. */
  function TogglePlayPause(s: PlayerState, audioMounted: bool): (r: PlayerState)
    ensures audioMounted ==> r.isPlaying == !s.isPlaying && r.(isPlaying := s.isPlaying) == s
    ensures !audioMounted ==> r == s
  {
    if audioMounted then s.(isPlaying := !s.isPlaying) else s
  }

  /** Play/pause twice returns to the starting state. */
  lemma TogglePlayPauseTwice(s: PlayerState, audioMounted: bool)
    ensures TogglePlayPause(TogglePlayPause(s, audioMounted), audioMounted) == s
  {
  }

  /** The audio element's `timeupdate` event: the position follows playback. */
  function TimeUpdate(s: PlayerState, position: real): (r: PlayerState)
    ensures r.currentTime == position && r.(currentTime := s.currentTime) == s
  {
    s.(currentTime := position)
  }

  /** The audio element's `ended` event: paused, back at position 0. */
  function Ended(s: PlayerState): (r: PlayerState)
    ensures !r.isPlaying && r.currentTime == 0.0
    ensures r.expandedStationId == s.expandedStationId && r.currentlyPlaying == s.currentlyPlaying
  {
    s.(isPlaying := false, currentTime := 0.0)
  }

  /** An open panel always belongs to the loaded station. */
  predicate PanelShowsLoaded(s: PlayerState) {
    s.expandedStationId.Some? ==> s.expandedStationId == s.currentlyPlaying
  }

  /** The initial state has it, and every transition keeps it. */
  lemma PanelShowsLoadedInvariant(s: PlayerState, stationId: nat, audioMounted: bool, position: real)
    requires PanelShowsLoaded(s)
    ensures PanelShowsLoaded(InitialPlayer)
    ensures PanelShowsLoaded(ToggleStationExpand(s, stationId))
    ensures PanelShowsLoaded(TogglePlayPause(s, audioMounted))
    ensures PanelShowsLoaded(TimeUpdate(s, position))
    ensures PanelShowsLoaded(Ended(s))
  {
  }

  /** `getCurrentStation`: a station whose id is the loaded one; none when
      nothing is loaded or no station has that id. */
  function CurrentStation(stations: seq<Station>, currentlyPlaying: Option<nat>): (r: Option<Station>)
    ensures r.None? <==> forall i :: 0 <= i < |stations| ==> Some(stations[i].id) != currentlyPlaying
    ensures r.Some? ==> r.value in stations && Some(r.value.id) == currentlyPlaying
    decreases |stations|
  {
    if |stations| == 0 then None
    else if Some(stations[0].id) == currentlyPlaying then Some(stations[0])
    else
      assert forall i :: 1 <= i < |stations| ==> stations[i] == stations[1..][i - 1];
      CurrentStation(stations[1..], currentlyPlaying)
  }

  /** Of several stations with the loaded id, `find` returns the first. */
  lemma {:induction false} CurrentStationIsFirst(stations: seq<Station>, currentlyPlaying: Option<nat>, k: nat)
    requires k < |stations| && Some(stations[k].id) == currentlyPlaying
    requires forall j :: 0 <= j < k ==> Some(stations[j].id) != currentlyPlaying
    ensures CurrentStation(stations, currentlyPlaying) == Some(stations[k])
    decreases k
  {
    if k > 0 {
      CurrentStationIsFirst(stations[1..], currentlyPlaying, k - 1);
    }
  }
}

=== FILE: road_list.dfy ===
/** The simple road list page: a fixed list of roads and the one expanded
    download panel. */
module RoadList {
  import opened Wrappers
  import opened Expand

  datatype RoadEntry = RoadEntry(id: nat, name: string, description: string, track: string)

  datatype RoadPageState = RoadPageState(roads: seq<RoadEntry>, expandedRoadId: Option<nat>)

  /** `toggleRoadExpand`: closes the road's panel when it is the open one and
      opens it otherwise, from nothing open as well; the road list is never
      changed. */
  function ToggleRoadExpand(s: RoadPageState, roadId: nat): (r: RoadPageState)
    ensures r.roads == s.roads
    ensures s.expandedRoadId == Some(roadId) ==> r.expandedRoadId.None?
    ensures s.expandedRoadId != Some(roadId) ==> r.expandedRoadId == Some(roadId)
  {
    s.(expandedRoadId := Toggle(s.expandedRoadId, roadId))
  }

  /** The state after clicking the roads `ids` in order. */
  function ApplyClicks(s: RoadPageState, ids: seq<nat>): RoadPageState
    decreases |ids|
  {
    if |ids| == 0 then s
    else ToggleRoadExpand(ApplyClicks(s, ids[..|ids| - 1]), ids[|ids| - 1])
  }

  /** However many clicks: the road list is the one the page started with, and
      at most one panel is open, that of the last road clicked. */
  lemma {:induction false} ClicksKeepRoads(s: RoadPageState, ids: seq<nat>)
    ensures ApplyClicks(s, ids).roads == s.roads
    ensures |ids| > 0 ==> ApplyClicks(s, ids).expandedRoadId in {None, Some(ids[|ids| - 1])}
    decreases |ids|
  {
    if |ids| > 0 {
      ClicksKeepRoads(s, ids[..|ids| - 1]);
    }
  }
}

=== FILE: roads.dfy ===
/** The static table of pilgrimage routes the pages list. The PDF and KML
    assets are referred to by name. */
module Roads {

  datatype Road = Road(
    id: nat,
    name: string,
    description: string,
    track: string,
    shortDescription: string,
    km: int,
    destination: string,
    loop: bool)

  const RoadsTable: seq<Road> := [
    Road(1, "Św. Macieja", "PDF1", "KML1", "Andrychów / Wieprz / Radocza / Wysoka / Kalwaria", 42, "Kalwaria", false),
    Road(2, "Zielona", "PDF2", "KML2", "Andrychów / Zagórnik / Łękawica / Kalwaria", 32, "Kalwaria", false),
    Road(3, "Św. Franciszka", "PDF3", "KML3", "Andrychów / Targoszów / Ślemień / Rychwałd", 38, "Rychwałd", false),
    Road(4, "JP II", "PDF4", "KML4", "Andrychów / Zagórnik / Zembrzyce / Kalwaria", 46, "Kalwaria", false),
    Road(5, "MB Różańcowej", "PDF5", "KML5", "Andrychów / Wieprz / Wadowice / Andrychów", 43, "Andrychów", true),
    Road(6, "Św. Faustyny", "PDF6", "KML6", "Andrychów / Kaczyna / Wadowice / Andrychów", 43, "Andrychów", true),
    Road(7, "Św. Józefa", "PDF7", "KML7", "Andrychów / Roczyny / Zawadka / Wadowice", 31, "Wadowice", false),
    Road(8, "Św. Stanisława", "PDF8", "KML8", "Andrychów / Żar / Zagórnik / Andrychów ", 50, "Andrychów", true),
    Road(9, "Św. Klary", "PDF9", "KML9", "Andrychów / Ślemień / Pewel Mała / Rychwałd", 46, "Rychwałd", false),
    Road(10, "Wszystkich Świętych", "PDF10", "KML10", "Andrychów / Bulowice / Frydrychowice / Andrychów", 52, "Andrychów", true),
    Road(11, "Św. Krzysztof", "PDF11", "KML11", "Andrychów / Zator / Piekary / Kraków", 82, "Kraków", false),
    Road(12, "Św. Rafała", "PDF12", "KML12", "Andrychów / Zagórnik / Kaczyna / Wadowice", 20, "Wadowice", false),
    Road(13, "Św. Teresy", "PDF13", "KML13", "Andrychów / Wieprz / Tomice / Wadowice", 23, "Wadowice", false),
    Road(14, "Św. Alberta", "PDF14", "KML14", "W trakcie weryfikacji", 0, "Wadowice", false),
    Road(15, "Św. Urbana", "PDF15", "KML15", "Roczyny / Żar / Kocierz / Roczyny", 39, "Roczyny", true),
    Road(16, "Św. Pawła", "PDF16", "KML16", "Roczyny / Malec / Kęty / Roczyny", 45, "Roczyny", true)
  ]
}

=== FILE: route_filters.dfy ===
/** The filterable route list: optional filters on name, destination, loop and
    distance over the road table, the filter panel, the expanded road and the
    destination choices. */
module RouteFilters {
  import opened Wrappers
  import opened Text
  import opened Seqs
  import opened Roads
  import opened Expand

  /** The filter record; `returnToStart` is `null` (no constraint), `true` or
      `false`. */
  datatype Filters = Filters(
    name: string,
    destination: string,
    returnToStart: Option<bool>,
    minDistance: int,
    maxDistance: int)

  const DefaultFilters := Filters("", "", None, 0, 100)

  predicate NameMatches(f: Filters, road: Road) {
    Contains(LowerStr(road.name), LowerStr(f.name))
  }

  predicate DestinationMatches(f: Filters, road: Road) {
    road.destination == f.destination
  }

  predicate LoopMatches(f: Filters, road: Road)
    requires f.returnToStart.Some?
  {
    road.loop == f.returnToStart.value
  }

  predicate DistanceMatches(f: Filters, road: Road) {
    f.minDistance <= road.km <= f.maxDistance
  }

  /** The conjunction of the active filters: an empty name, an empty
      destination and a missing `returnToStart` constrain nothing; the distance
      range always applies, bounds included. */
  predicate Keeps(f: Filters, road: Road) {
    KeepsUpTo(f, road, 4)
  }

  /** The first `n` of the four filters, in the order `applyFilters` applies
      them, hold of `road`. */
  predicate KeepsUpTo(f: Filters, road: Road, n: nat) {
    && (n < 1 || f.name == "" || NameMatches(f, road))
    && (n < 2 || f.destination == "" || DestinationMatches(f, road))
    && (n < 3 || f.returnToStart.None? || LoopMatches(f, road))
    && (n < 4 || DistanceMatches(f, road))
  }

  /** The predicates the passes filter by, each named once. */
  function NameP(f: Filters): Road -> bool {
    road => NameMatches(f, road)
  }

  function DestinationP(f: Filters): Road -> bool {
    road => DestinationMatches(f, road)
  }

  function LoopP(f: Filters): Road -> bool {
    road => f.returnToStart.Some? && LoopMatches(f, road)
  }

  function DistanceP(f: Filters): Road -> bool {
    road => DistanceMatches(f, road)
  }

  function UpToP(f: Filters, n: nat): Road -> bool {
    road => KeepsUpTo(f, road, n)
  }

  /** One filtering pass, applied only when its filter is active. */
  function Stage(active: bool, p: Road -> bool, roads: seq<Road>): seq<Road> {
    if active then Filter(p, roads) else roads
  }

  /** The roads satisfying every active filter, in table order. */
  function Kept(roads: seq<Road>, f: Filters): seq<Road> {
    Filter(UpToP(f, 4), roads)
  }

  /** `applyFilters`: the name, destination and loop passes when active, then
      the distance pass. The result is exactly the roads satisfying every
      active filter, in table order. */
  function ApplyFilters(roads: seq<Road>, f: Filters): (r: seq<Road>)
    ensures r == Kept(roads, f)
    ensures SubSeq(r, roads)
    ensures forall i :: 0 <= i < |r| ==> Keeps(f, r[i])
    ensures forall i :: 0 <= i < |roads| && Keeps(f, roads[i]) ==> roads[i] in r
  {
    var byName := Stage(f.name != "", NameP(f), roads);
    var byDestination := Stage(f.destination != "", DestinationP(f), byName);
    var byLoop := Stage(f.returnToStart.Some?, LoopP(f), byDestination);
    ApplyFiltersChain(roads, f);
    Filter(DistanceP(f), byLoop)
  }

  /** A pass continues the filtering by the filters before it: after it, the
      first `n + 1` filters hold. */
  lemma StageExtends(active: bool, p: Road -> bool, f: Filters, n: nat, s: seq<Road>)
    requires forall i :: 0 <= i < |s| ==>
      KeepsUpTo(f, s[i], n + 1) == (KeepsUpTo(f, s[i], n) && (!active || p(s[i])))
    ensures Stage(active, p, Filter(UpToP(f, n), s)) == Filter(UpToP(f, n + 1), s)
  {
    var t := Filter(UpToP(f, n), s);
    if active {
      FilterFilter(UpToP(f, n), p, UpToP(f, n + 1), s);
    } else {
      FilterFilter(UpToP(f, n), UpToP(f, 0), UpToP(f, n + 1), s);
      FilterAll(UpToP(f, 0), t);
    }
  }

  /** The chain of passes equals one filter by the conjunction of the active
      filters. */
  lemma ApplyFiltersChain(roads: seq<Road>, f: Filters)
    ensures Filter(DistanceP(f), Stage(f.returnToStart.Some?, LoopP(f),
              Stage(f.destination != "", DestinationP(f),
                Stage(f.name != "", NameP(f), roads))))
            == Kept(roads, f)
  {
    NameStage(roads, f);
    DestinationStage(roads, f);
    LoopStage(roads, f);
    DistanceStage(roads, f);
  }

  lemma NameStage(roads: seq<Road>, f: Filters)
    ensures Stage(f.name != "", NameP(f), roads) == Filter(UpToP(f, 1), roads)
  {
    FilterAll(UpToP(f, 0), roads);
    StageExtends(f.name != "", NameP(f), f, 0, roads);
  }

  lemma DestinationStage(roads: seq<Road>, f: Filters)
    ensures Stage(f.destination != "", DestinationP(f), Filter(UpToP(f, 1), roads))
      == Filter(UpToP(f, 2), roads)
  {
    StageExtends(f.destination != "", DestinationP(f), f, 1, roads);
  }

  lemma LoopStage(roads: seq<Road>, f: Filters)
    ensures Stage(f.returnToStart.Some?, LoopP(f), Filter(UpToP(f, 2), roads))
      == Filter(UpToP(f, 3), roads)
  {
    StageExtends(f.returnToStart.Some?, LoopP(f), f, 2, roads);
  }

  lemma DistanceStage(roads: seq<Road>, f: Filters)
    ensures Filter(DistanceP(f), Filter(UpToP(f, 3), roads)) == Filter(UpToP(f, 4), roads)
  {
    StageExtends(true, DistanceP(f), f, 3, roads);
  }

  /** A distance range with its minimum above its maximum keeps no road. */
  lemma EmptyDistanceRange(roads: seq<Road>, f: Filters)
    requires f.minDistance > f.maxDistance
    ensures ApplyFilters(roads, f) == []
  {
    FilterNone(UpToP(f, 4), roads);
  }

  /** With the default filters every road whose length lies in 0..100 km is
      kept, so a table of such roads is kept whole. */
  lemma DefaultFiltersKeepAll(roads: seq<Road>)
    requires forall i :: 0 <= i < |roads| ==> 0 <= roads[i].km <= 100
    ensures ApplyFilters(roads, DefaultFilters) == roads
  {
    FilterAll(UpToP(DefaultFilters, 4), roads);
  }

  /** Every route of the table is between 0 and 100 km long, so the default
      filters show the whole table. */
  lemma DefaultFiltersShowWholeTable()
    ensures ApplyFilters(RoadsTable, DefaultFilters) == RoadsTable
  {
    DefaultFiltersKeepAll(RoadsTable);
  }

  /** The name filter ignores case: filter texts that lower-case alike keep the
      same roads. */
  lemma NameFilterIgnoresCase(roads: seq<Road>, f: Filters, name: string)
    requires LowerStr(name) == LowerStr(f.name)
    ensures ApplyFilters(roads, f.(name := name)) == ApplyFilters(roads, f)
  {
    var g := f.(name := name);
    FilterExt(UpToP(g, 4), UpToP(f, 4), roads);
  }

  // ---- filter updates ----

  /** The filter fields, as `handleFilterChange` names them. */
  datatype Field = Name | Destination | ReturnToStart | MinDistance | MaxDistance

  /** A `handleFilterChange(name, value)` call: the field and its new value. */
  datatype FilterUpdate =
    | SetName(name: string)
    | SetDestination(destination: string)
    | SetReturnToStart(returnToStart: Option<bool>)
    | SetMinDistance(minDistance: int)
    | SetMaxDistance(maxDistance: int)

  function FieldOf(u: FilterUpdate): Field {
    match u
    case SetName(_) => Name
    case SetDestination(_) => Destination
    case SetReturnToStart(_) => ReturnToStart
    case SetMinDistance(_) => MinDistance
    case SetMaxDistance(_) => MaxDistance
  }

  /** `f` and `g` agree on every field except possibly `field`. */
  predicate AgreeExcept(f: Filters, g: Filters, field: Field) {
    && (field == Name || f.name == g.name)
    && (field == Destination || f.destination == g.destination)
    && (field == ReturnToStart || f.returnToStart == g.returnToStart)
    && (field == MinDistance || f.minDistance == g.minDistance)
    && (field == MaxDistance || f.maxDistance == g.maxDistance)
  }

  /** `{...prev, [name]: value}`: the named field takes the new value and every
      other field keeps its old one. */
  function ChangeFilter(f: Filters, u: FilterUpdate): (r: Filters)
    ensures AgreeExcept(f, r, FieldOf(u))
    ensures u.SetName? ==> r.name == u.name
    ensures u.SetDestination? ==> r.destination == u.destination
    ensures u.SetReturnToStart? ==> r.returnToStart == u.returnToStart
    ensures u.SetMinDistance? ==> r.minDistance == u.minDistance
    ensures u.SetMaxDistance? ==> r.maxDistance == u.maxDistance
  {
    match u
    case SetName(v) => f.(name := v)
    case SetDestination(v) => f.(destination := v)
    case SetReturnToStart(v) => f.(returnToStart := v)
    case SetMinDistance(v) => f.(minDistance := v)
    case SetMaxDistance(v) => f.(maxDistance := v)
  }

  /** A later change of the same field overrides an earlier one; changes of
      different fields commute. */
  lemma ChangeFilterOverrideCommute(f: Filters, u: FilterUpdate, v: FilterUpdate)
    ensures FieldOf(u) == FieldOf(v) ==> ChangeFilter(ChangeFilter(f, u), v) == ChangeFilter(f, v)
    ensures FieldOf(u) != FieldOf(v) ==>
      ChangeFilter(ChangeFilter(f, u), v) == ChangeFilter(ChangeFilter(f, v), u)
  {
  }

  // ---- the page ----

  datatype FilterPage = FilterPage(
    filters: Filters,
    filteredRoads: seq<Road>,
    expandedRoadId: Option<nat>,
    isFilterOpen: bool)

  const InitialPage := FilterPage(DefaultFilters, RoadsTable, None, false)

  /** `handleFilterChange` followed by the effect that re-applies the filters
      whenever they change. */
  function HandleFilterChange(p: FilterPage, u: FilterUpdate): (r: FilterPage)
    ensures r.filters == ChangeFilter(p.filters, u)
    ensures AgreeExcept(p.filters, r.filters, FieldOf(u))
    ensures r.filteredRoads == ApplyFilters(RoadsTable, r.filters)
    ensures forall i :: 0 <= i < |r.filteredRoads| ==> Keeps(r.filters, r.filteredRoads[i])
    ensures SubSeq(r.filteredRoads, RoadsTable)
    ensures forall i :: 0 <= i < |RoadsTable| && Keeps(r.filters, RoadsTable[i]) ==>
      RoadsTable[i] in r.filteredRoads
    ensures r.expandedRoadId == p.expandedRoadId && r.isFilterOpen == p.isFilterOpen
  {
    var f := ChangeFilter(p.filters, u);
    p.(filters := f, filteredRoads := ApplyFilters(RoadsTable, f))
  }

  /** `resetFilters`: the default filters and the whole table. The effect that
      re-applies the (new) default filters afterwards yields the same list. */
  function ResetFilters(p: FilterPage): (r: FilterPage)
    ensures r.filters == DefaultFilters
    ensures r.filteredRoads == ApplyFilters(RoadsTable, r.filters)
    ensures r.expandedRoadId == p.expandedRoadId && r.isFilterOpen == p.isFilterOpen
  {
    DefaultFiltersShowWholeTable();
    p.(filters := DefaultFilters, filteredRoads := RoadsTable)
  }

  /** `toggleRoadExpand`: the clicked road's panel closes when it is the open
      one and opens otherwise; the filters and the list are untouched. */
  function ToggleRoadExpand(p: FilterPage, roadId: nat): (r: FilterPage)
    ensures p.expandedRoadId == Some(roadId) ==> r.expandedRoadId.None?
    ensures p.expandedRoadId != Some(roadId) ==> r.expandedRoadId == Some(roadId)
    ensures r.filters == p.filters && r.filteredRoads == p.filteredRoads
    ensures r.isFilterOpen == p.isFilterOpen
  {
    p.(expandedRoadId := Toggle(p.expandedRoadId, roadId))
  }

  /** `toggleFilters`: shows or hides the filter panel and nothing else. */
  function ToggleFilters(p: FilterPage): (r: FilterPage)
    ensures r.isFilterOpen != p.isFilterOpen
    ensures r.(isFilterOpen := p.isFilterOpen) == p
  {
    p.(isFilterOpen := !p.isFilterOpen)
  }

  /** The list shown is the table filtered by the filters shown. */
  predicate ListMatchesFilters(p: FilterPage) {
    p.filteredRoads == ApplyFilters(RoadsTable, p.filters)
  }

  /** The initial page (default filters, the whole table) has it, and every
      handler keeps it. */
  lemma ListMatchesFiltersInvariant(p: FilterPage, u: FilterUpdate, roadId: nat)
    requires ListMatchesFilters(p)
    ensures ListMatchesFilters(InitialPage)
    ensures ListMatchesFilters(HandleFilterChange(p, u))
    ensures ListMatchesFilters(ResetFilters(p))
    ensures ListMatchesFilters(ToggleRoadExpand(p, roadId))
    ensures ListMatchesFilters(ToggleFilters(p))
  {
    DefaultFiltersShowWholeTable();
  }

  // ---- destination choices ----

  function Destinations(roads: seq<Road>): (r: seq<string>)
    ensures |r| == |roads|
  {
    seq(|roads|, i requires 0 <= i < |roads| => roads[i].destination)
  }

  /** `[...new Set(roads.map(road => road.destination))]`: each destination once,
      every road's destination present, nothing else. */
  function UniqueDestinations(roads: seq<Road>): (r: seq<string>)
    ensures NoDup(r)
    ensures forall i :: 0 <= i < |roads| ==> roads[i].destination in r
    ensures forall k :: 0 <= k < |r| ==> exists i :: 0 <= i < |roads| && roads[i].destination == r[k]
  {
    var ds := Destinations(roads);
    var r := Dedup(ds);
    assert forall i :: 0 <= i < |roads| ==> ds[i] == roads[i].destination;
    r
  }
}

=== FILE: seqs.dfy ===
/** Sequence operations the pages take from `Array.prototype` and `Set`:
    `filter`, and de-duplication through a `Set` spread back into an array. */
module Seqs {

  /** `s.filter(p)`: the elements satisfying `p`, in their original order. */
  function Filter<T(==)>(p: T -> bool, s: seq<T>): (r: seq<T>)
    ensures |r| <= |s|
    ensures forall i :: 0 <= i < |r| ==> r[i] in s && p(r[i])
    ensures forall i :: 0 <= i < |s| && p(s[i]) ==> s[i] in r
    ensures SubSeq(r, s)
    decreases |s|
  {
    if |s| == 0 then []
    else
      var rest := Filter(p, s[..|s| - 1]);
      SubSeqSnoc(rest, s[..|s| - 1], s[|s| - 1]);
      assert s[..|s| - 1] + [s[|s| - 1]] == s;
      assert forall i :: 0 <= i < |s| - 1 ==> s[i] == s[..|s| - 1][i];
      if p(s[|s| - 1]) then rest + [s[|s| - 1]] else rest
  }

  /** `filter` keeps every occurrence of a satisfying element and drops every
      occurrence of the others: the result counts each value as often as the
      input does when it satisfies `p`, and not at all otherwise. */
  lemma {:induction false} FilterCount<T>(p: T -> bool, s: seq<T>)
    ensures forall x :: multiset(Filter(p, s))[x] == if p(x) then multiset(s)[x] else 0
    decreases |s|
  {
    if |s| > 0 {
      var init := s[..|s| - 1];
      FilterCount(p, init);
      assert s == init + [s[|s| - 1]];
    }
  }

  /** `a` is `b` with some elements left out, the rest kept in order. */
  predicate SubSeq<T(==)>(a: seq<T>, b: seq<T>)
    decreases |b|
  {
    if |a| == 0 then true
    else if |b| == 0 then false
    else if a[|a| - 1] == b[|b| - 1] then SubSeq(a[..|a| - 1], b[..|b| - 1])
    else SubSeq(a, b[..|b| - 1])
  }

  /** Extending the longer sequence keeps a subsequence a subsequence, and
      extending both with the same element too. */
  lemma SubSeqSnoc<T>(a: seq<T>, b: seq<T>, x: T)
    requires SubSeq(a, b)
    ensures SubSeq(a, b + [x])
    ensures SubSeq(a + [x], b + [x])
  {
    SubSeqExtend(a, b, x);
    assert (a + [x])[..|a|] == a;
    assert (b + [x])[..|b|] == b;
  }

  lemma {:induction false} SubSeqExtend<T>(a: seq<T>, b: seq<T>, x: T)
    requires SubSeq(a, b)
    ensures SubSeq(a, b + [x])
    decreases |b|, 1
  {
    assert (b + [x])[..|b|] == b;
    if |a| > 0 && a[|a| - 1] == x {
      SubSeqInit(a, b);
    }
  }

  /** Dropping the last element of a subsequence keeps it a subsequence. */
  lemma {:induction false} SubSeqInit<T>(a: seq<T>, b: seq<T>)
    requires |a| > 0 && SubSeq(a, b)
    ensures SubSeq(a[..|a| - 1], b)
    decreases |b|, 0
  {
    var b' := b[..|b| - 1];
    assert b' + [b[|b| - 1]] == b;
    if a[|a| - 1] == b[|b| - 1] {
      SubSeqExtend(a[..|a| - 1], b', b[|b| - 1]);
    } else {
      SubSeqInit(a, b');
      SubSeqExtend(a[..|a| - 1], b', b[|b| - 1]);
    }
  }

  /** No element occurs twice. */
  predicate NoDup<T(==)>(s: seq<T>) {
    forall i, j :: 0 <= i < j < |s| ==> s[i] != s[j]
  }

  /** `[...new Set(s)]`: every distinct element once, at the place of its
      first occurrence (a `Set` iterates in insertion order). */
  function Dedup<T(==)>(s: seq<T>): (r: seq<T>)
    ensures NoDup(r)
    ensures forall i :: 0 <= i < |r| ==> r[i] in s
    ensures forall i :: 0 <= i < |s| ==> s[i] in r
    ensures SubSeq(r, s)
    decreases |s|
  {
    if |s| == 0 then []
    else
      var rest := Dedup(s[..|s| - 1]);
      var x := s[|s| - 1];
      SubSeqSnoc(rest, s[..|s| - 1], x);
      assert s[..|s| - 1] + [x] == s;
      assert forall i :: 0 <= i < |s| - 1 ==> s[i] == s[..|s| - 1][i];
      if x in rest then rest else rest + [x]
  }

  /** The elements of `Dedup(s)` come in the order of their first occurrences
      in `s`: an element listed before another occurs in `s` before every
      occurrence of the other. */
  lemma {:induction false} DedupFirstOccurrenceOrder<T>(s: seq<T>)
    ensures forall k, l, i :: 0 <= k < l < |Dedup(s)| && 0 <= i < |s| && s[i] == Dedup(s)[l] ==>
      Dedup(s)[k] in s[..i]
    decreases |s|
  {
    if |s| > 0 {
      DedupFirstOccurrenceOrder(s[..|s| - 1]);
      forall k, l, i | 0 <= k < l < |Dedup(s)| && 0 <= i < |s| && s[i] == Dedup(s)[l]
        ensures Dedup(s)[k] in s[..i]
      {
        DedupOrderStep(s, k, l, i);
      }
    }
  }

  /** One step of the induction above: the order fact for `s` from the one for
      `s` without its last element. */
  lemma DedupOrderStep<T>(s: seq<T>, k: nat, l: nat, i: nat)
    requires |s| > 0
    requires var init := s[..|s| - 1];
      forall k, l, i :: 0 <= k < l < |Dedup(init)| && 0 <= i < |init| && init[i] == Dedup(init)[l] ==>
        Dedup(init)[k] in init[..i]
    requires k < l < |Dedup(s)| && i < |s| && s[i] == Dedup(s)[l]
    ensures Dedup(s)[k] in s[..i]
  {
    var init := s[..|s| - 1];
    var rest := Dedup(init);
    var r := Dedup(s);
    assert r == if s[|s| - 1] in rest then rest else rest + [s[|s| - 1]];
    assert r[k] == rest[k] && rest[k] in init;
    if i < |s| - 1 {
      assert init[i] == s[i] && init[i] in rest;
      assert l < |rest| && r[l] == rest[l] && init[i] == rest[l];
      assert rest[k] in init[..i];
      assert s[..i] == init[..i];
    } else {
      assert s[..i] == init;
    }
  }

  /** Filtering a sequence extended by one element extends the filtered
      sequence by that element exactly when it satisfies the predicate. */
  lemma FilterSnoc<T>(p: T -> bool, s: seq<T>, x: T)
    ensures Filter(p, s + [x]) == Filter(p, s) + (if p(x) then [x] else [])
  {
    assert (s + [x])[..|s|] == s;
  }

  /** Filtering by `p` and then by `q` keeps exactly what one filter by their
      conjunction `pq` keeps. */
  lemma {:induction false} FilterFilter<T>(p: T -> bool, q: T -> bool, pq: T -> bool, s: seq<T>)
    requires forall i :: 0 <= i < |s| ==> pq(s[i]) == (p(s[i]) && q(s[i]))
    ensures Filter(q, Filter(p, s)) == Filter(pq, s)
    decreases |s|
  {
    if |s| > 0 {
      FilterFilter(p, q, pq, s[..|s| - 1]);
      var rest := Filter(p, s[..|s| - 1]);
      var x := s[|s| - 1];
      if p(x) {
        assert (rest + [x])[..|rest + [x]| - 1] == rest;
      }
    }
  }

  /** Filtering with a predicate every element satisfies keeps everything. */
  lemma {:induction false} FilterAll<T>(p: T -> bool, s: seq<T>)
    requires forall i :: 0 <= i < |s| ==> p(s[i])
    ensures Filter(p, s) == s
    decreases |s|
  {
    if |s| > 0 {
      FilterAll(p, s[..|s| - 1]);
      assert s[..|s| - 1] + [s[|s| - 1]] == s;
    }
  }

  /** Filtering with a predicate no element satisfies keeps nothing. */
  lemma {:induction false} FilterNone<T>(p: T -> bool, s: seq<T>)
    requires forall i :: 0 <= i < |s| ==> !p(s[i])
    ensures Filter(p, s) == []
    decreases |s|
  {
    if |s| > 0 {
      FilterNone(p, s[..|s| - 1]);
    }
  }

  /** Filtering depends only on which elements the predicate keeps. */
  lemma {:induction false} FilterExt<T>(p: T -> bool, q: T -> bool, s: seq<T>)
    requires forall i :: 0 <= i < |s| ==> p(s[i]) == q(s[i])
    ensures Filter(p, s) == Filter(q, s)
    decreases |s|
  {
    if |s| > 0 {
      FilterExt(p, q, s[..|s| - 1]);
    }
  }
}

=== FILE: synthesis.dfy ===
/** Synthetic waypoints for a track file without point placemarks: a start at
    the first coordinate, an end at the last, and stations at every interior
    index that is a multiple of the stride ceil(len / 15). */
module Synthesis {
  import opened Text
  import opened Geo
  import opened Waypoints
  import opened Arith

  /** `Math.ceil(len / 15)`, the spacing between synthetic stations. */
  function Stride(len: nat): (r: nat)
    ensures (r - 1) * 15 < len <= r * 15
    ensures len > 0 ==> r >= 1
  {
    (len + 14) / 15
  }

  /** `Math.ceil(i / (len / 14))`, the station number written into the label,
      taken as the exact rational ceiling of 14 * i / len. */
  function StationNumber(i: nat, len: nat): (n: nat)
    requires len > 0
    ensures (n - 1) * len < 14 * i <= n * len
  {
    var q := (14 * i + len - 1) / len;
    assert q * len <= 14 * i + len - 1 < q * len + len;
    q
  }

  /** The loop condition: an interior index that is a multiple of the stride. */
  predicate IsStationIndex(len: nat, i: nat) {
    1 <= i < len - 1 && i % Stride(len) == 0
  }

  /** The station indices the loop `for (i = 1; i < j; i++)` visits, in visiting
      order. */
  function StationIndicesBelow(len: nat, j: nat): (r: seq<nat>)
    requires j < len
    ensures forall k :: 0 <= k < |r| ==> 1 <= r[k] < j && r[k] % Stride(len) == 0
    ensures forall k, l :: 0 <= k < l < |r| ==> r[k] < r[l]
    ensures forall i :: 1 <= i < j && i % Stride(len) == 0 ==> i in r
    decreases j
  {
    if j <= 1 then []
    else StationIndicesBelow(len, j - 1) + (if (j - 1) % Stride(len) == 0 then [j - 1] else [])
  }

  /** The indices of the track that become stations: strictly increasing, each
      one an interior multiple of the stride, and every such index present. */
  function StationIndices(len: nat): (r: seq<nat>)
    ensures forall k :: 0 <= k < |r| ==> IsStationIndex(len, r[k])
    ensures forall k, l :: 0 <= k < l < |r| ==> r[k] < r[l]
    ensures forall i :: IsStationIndex(len, i) ==> i in r
  {
    if len < 2 then [] else StationIndicesBelow(len, len - 1)
  }

  function StartWaypoint(p: LatLng): Waypoint {
    Waypoint(p, "Start", "Punkt początkowy drogi", Start)
  }

  function EndWaypoint(p: LatLng): Waypoint {
    Waypoint(p, "Koniec", "Punkt końcowy drogi", End)
  }

  function StationWaypoint(track: seq<LatLng>, i: nat): Waypoint
    requires i < |track|
  {
    Waypoint(track[i], "Stacja " + NatToString(StationNumber(i, |track|)),
             "Stacja drogi krzyżowej", Station)
  }

  /** The synthesised waypoint list: start, the stations in track order, end. */
  function Synthesize(track: seq<LatLng>): (r: seq<Waypoint>)
    requires |track| > 0
    ensures |r| == |StationIndices(|track|)| + 2
    ensures r[0] == StartWaypoint(track[0])
    ensures r[|r| - 1] == EndWaypoint(track[|track| - 1])
    ensures forall k :: 0 <= k < |StationIndices(|track|)| ==>
              r[k + 1] == StationWaypoint(track, StationIndices(|track|)[k])
  {
    var idx := StationIndices(|track|);
    [StartWaypoint(track[0])]
    + seq(|idx|, k requires 0 <= k < |idx| => StationWaypoint(track, idx[k]))
    + [EndWaypoint(track[|track| - 1])]
  }

  /** Each waypoint between the first and the last is a station placed at the
      track position of the matching station index. */
  lemma SynthesizeStationPositions(track: seq<LatLng>)
    requires |track| > 0
    ensures var r := Synthesize(track);
      forall k :: 1 <= k < |r| - 1 ==>
        r[k].kind == Station && r[k].position == track[StationIndices(|track|)[k - 1]]
  {
    var r := Synthesize(track);
    forall k | 1 <= k < |r| - 1
      ensures r[k].kind == Station && r[k].position == track[StationIndices(|track|)[k - 1]]
    {
      assert r[k] == StationWaypoint(track, StationIndices(|track|)[k - 1]);
    }
  }

  /** The position at a station index is an interior point of the track. */
  lemma StationIndexInterior(track: seq<LatLng>, i: nat)
    requires IsStationIndex(|track|, i)
    ensures track[i] in track[1..|track| - 1]
  {
    assert track[i] == track[1..|track| - 1][i - 1];
  }

  /** The shape of a synthesised list: at least two waypoints, a start first, an
      end last, and stations only in between, each at the position of an
      interior index of the track. */
  lemma SynthesizeShape(track: seq<LatLng>)
    requires |track| > 0
    ensures var r := Synthesize(track);
      && |r| >= 2
      && r[0].kind == Start && r[0].position == track[0]
      && r[|r| - 1].kind == End && r[|r| - 1].position == track[|track| - 1]
      && (forall k :: 1 <= k < |r| - 1 ==>
            r[k].kind == Station && r[k].position in track[1..|track| - 1])
  {
    var r := Synthesize(track);
    var idx := StationIndices(|track|);
    SynthesizeStationPositions(track);
    forall k | 1 <= k < |r| - 1
      ensures r[k].kind == Station && r[k].position in track[1..|track| - 1]
    {
      StationIndexInterior(track, idx[k - 1]);
    }
  }

  /** Every interior station number lies between 1 and 14. */
  lemma StationNumberRange(i: nat, len: nat)
    requires 1 <= i < len
    ensures 1 <= StationNumber(i, len) <= 14
  {
    var n := StationNumber(i, len);
    MulCancel(n as int - 1, 14, len);
    MulCancel(0, n, len);
  }

  /** Station numbers never decrease along the track. */
  lemma StationNumberMonotone(i: nat, j: nat, len: nat)
    requires i <= j && len > 0
    ensures StationNumber(i, len) <= StationNumber(j, len)
  {
    var a, b := StationNumber(i, len), StationNumber(j, len);
    MulCancel(a as int - 1, b, len);
  }

  /** For a track of at most 15 points the stride is 1, so every interior index
      becomes a station. */
  lemma ShortTrackStationsEverywhere(len: nat)
    requires 2 <= len <= 15
    ensures StationIndices(len) == seq(len - 2, k => k + 1)
  {
    StrideOneBelow(len, len - 1);
  }

  lemma {:induction false} StrideOneBelow(len: nat, j: nat)
    requires 1 <= j < len <= 15
    ensures StationIndicesBelow(len, j) == seq(j - 1, k => k + 1)
    decreases j
  {
    if j > 1 {
      StrideOneBelow(len, j - 1);
      assert Stride(len) == 1;
    }
  }

  /** The loop over indices 1..j-1 keeps one index per multiple of the stride. */
  lemma {:induction false} StationCountBelow(len: nat, j: nat)
    requires 1 <= j < len
    ensures |StationIndicesBelow(len, j)| == (j - 1) / Stride(len)
    decreases j
  {
    if j > 1 {
      StationCountBelow(len, j - 1);
      DivStep(j - 2, Stride(len));
    }
  }

  /** A track of 30 points without placemarks gets 14 stations: more than none
      and fewer than the 30 points. */
  lemma ThirtyPointTrack()
    ensures |StationIndices(30)| == 14
  {
    assert Stride(30) == 2;
    StationCountBelow(30, 29);
  }
}

=== FILE: text.dfy ===
/** The string operations the pages rely on: `toLowerCase`, `includes`,
    `Number.prototype.toString` for integers and `padStart`. */
module Text {

  /** Lower-cases one character. Only the ASCII capitals and the capitals of the
      Polish alphabet are mapped; every other character is its own lower case. */
  function Lower(c: char): char {
    if 'A' <= c <= 'Z' then (c as int + 32) as char
    else match c
      case 'Ą' => 'ą'
      case 'Ć' => 'ć'
      case 'Ę' => 'ę'
      case 'Ł' => 'ł'
      case 'Ń' => 'ń'
      case 'Ó' => 'ó'
      case 'Ś' => 'ś'
      case 'Ź' => 'ź'
      case 'Ż' => 'ż'
      case _ => c
  }

  /** The Polish capitals outside ASCII and, at the same index, their small
      letters. */
  const PolishCapitals: string := "ĄĆĘŁŃÓŚŹŻ"
  const PolishSmall: string := "ąćęłńóśźż"

  /** The capital letters `Lower` maps: ASCII and Polish. */
  predicate IsUpper(c: char) {
    'A' <= c <= 'Z' || c in PolishCapitals
  }

  /** `s.toLowerCase()`, character by character: no capital is left, an ASCII
      or Polish capital becomes its small letter, and every other character is
      kept. */
  function LowerStr(s: string): (r: string)
    ensures |r| == |s|
    ensures forall i :: 0 <= i < |r| ==> !IsUpper(r[i])
    ensures forall i :: 0 <= i < |s| && 'A' <= s[i] <= 'Z' ==> r[i] as int == s[i] as int + 32
    ensures forall i, j :: 0 <= i < |s| && 0 <= j < |PolishCapitals| && s[i] == PolishCapitals[j] ==>
      r[i] == PolishSmall[j]
    ensures forall i :: 0 <= i < |s| && !IsUpper(s[i]) ==> r[i] == s[i]
  {
    seq(|s|, i requires 0 <= i < |s| => Lower(s[i]))
  }

  /** Lower-casing an already lower-cased string changes nothing. */
  lemma LowerStrIdempotent(s: string)
    ensures LowerStr(LowerStr(s)) == LowerStr(s)
  {
    forall i | 0 <= i < |s|
      ensures LowerStr(LowerStr(s))[i] == LowerStr(s)[i]
    {
      var c := s[i];
      assert Lower(Lower(c)) == Lower(c);
    }
  }

  /** `sub` agrees with `s` from index `i` on, at the positions `k..` of `sub`. */
  predicate MatchesAt(s: string, sub: string, i: nat, k: nat)
    requires i + |sub| <= |s|
    decreases |sub| - k
  {
    k >= |sub| || (s[i + k] == sub[k] && MatchesAt(s, sub, i, k + 1))
  }

  /** `sub` occurs in `s` at some index `i` or later. */
  predicate ContainsFrom(s: string, sub: string, i: nat)
    decreases |s| - i
  {
    i + |sub| <= |s| && (MatchesAt(s, sub, i, 0) || ContainsFrom(s, sub, i + 1))
  }

  /** `s.includes(sub)`. */
  predicate Contains(s: string, sub: string) {
    ContainsFrom(s, sub, 0)
  }

  /** `sub` occurs in `s` starting at index `i`. */
  ghost predicate OccursAt(s: string, sub: string, i: nat) {
    i + |sub| <= |s| && s[i..i + |sub|] == sub
  }

  lemma {:induction false} MatchesAtIff(s: string, sub: string, i: nat, k: nat)
    requires i + |sub| <= |s|
    ensures MatchesAt(s, sub, i, k) <==> forall j :: k <= j < |sub| ==> s[i + j] == sub[j]
    decreases |sub| - k
  {
    if k < |sub| {
      MatchesAtIff(s, sub, i, k + 1);
    }
  }

  lemma {:induction false} ContainsFromIff(s: string, sub: string, i: nat)
    ensures ContainsFrom(s, sub, i) <==> exists j: nat :: i <= j && OccursAt(s, sub, j)
    decreases |s| - i
  {
    if i + |sub| <= |s| {
      MatchesAtIff(s, sub, i, 0);
      assert MatchesAt(s, sub, i, 0) <==> OccursAt(s, sub, i) by {
        if MatchesAt(s, sub, i, 0) {
          assert s[i..i + |sub|] == sub;
        }
      }
      ContainsFromIff(s, sub, i + 1);
      if !ContainsFrom(s, sub, i) {
        forall j: nat | i <= j
          ensures !OccursAt(s, sub, j)
        {
          if j > i {
            assert j >= i + 1;
          }
        }
      }
    } else {
      forall j: nat | i <= j
        ensures !OccursAt(s, sub, j)
      {
      }
    }
  }

  /** `Contains` holds exactly when `sub` occurs at some index of `s`. */
  lemma ContainsIffOccurs(s: string, sub: string)
    ensures Contains(s, sub) <==> exists i: nat :: OccursAt(s, sub, i)
  {
    ContainsFromIff(s, sub, 0);
  }

  // ---- decimal rendering of integers ----

  predicate IsDigit(c: char) {
    '0' <= c <= '9'
  }

  predicate AllDigits(s: string) {
    forall i :: 0 <= i < |s| ==> IsDigit(s[i])
  }

  function DigitChar(d: nat): (c: char)
    requires d < 10
    ensures IsDigit(c)
  {
    ('0' as int + d) as char
  }

  function DigitValue(c: char): nat
    requires IsDigit(c)
  {
    c as int - '0' as int
  }

  /** `n.toString()` for a non-negative integer: its decimal digits, most
      significant first, without leading zeros. */
  function NatToString(n: nat): (r: string)
    ensures 1 <= |r|
    ensures AllDigits(r)
    ensures r[0] == '0' ==> n == 0
    ensures |r| == 1 <==> n < 10
    ensures |r| == 2 <==> 10 <= n < 100
    ensures |r| >= 3 <==> 100 <= n
    decreases n
  {
    if n < 10 then [DigitChar(n)] else NatToString(n / 10) + [DigitChar(n % 10)]
  }

  /** `n.toString()` for any integer: a minus sign before the digits of `-n`. */
  function IntToString(n: int): (r: string)
    ensures n >= 0 ==> AllDigits(r) && ParseDigits(r) == n
    ensures n < 0 ==> |r| >= 2 && r[0] == '-' && AllDigits(r[1..]) && ParseDigits(r[1..]) == -n
    ensures n >= 0 ==> |r| >= 1 && (r[0] == '0' ==> n == 0)
    ensures n < 0 ==> r[1] != '0'
  {
    if n < 0 then
      var d := NatToString(-n);
      ParseNatToString(-n);
      assert ("-" + d)[1..] == d;
      "-" + d
    else
      ParseNatToString(n);
      NatToString(n)
  }

  /** The value of a string of decimal digits, most significant first. */
  function ParseDigits(s: string): nat
    requires AllDigits(s)
  {
    if |s| == 0 then 0 else ParseDigits(s[..|s| - 1]) * 10 + DigitValue(s[|s| - 1])
  }

  /** Reading back the digits `NatToString` writes gives the number. */
  lemma {:induction false} ParseNatToString(n: nat)
    ensures ParseDigits(NatToString(n)) == n
    decreases n
  {
    var r := NatToString(n);
    if n >= 10 {
      ParseNatToString(n / 10);
      assert r[..|r| - 1] == NatToString(n / 10);
    }
  }

  /** Leading zeros do not change the value of a digit string. */
  lemma {:induction false} ParseLeadingZeros(z: nat, s: string)
    requires AllDigits(s)
    ensures AllDigits(Repeat('0', z) + s)
    ensures ParseDigits(Repeat('0', z) + s) == ParseDigits(s)
    decreases z, |s|
  {
    var t := Repeat('0', z) + s;
    if |s| == 0 {
      if z > 0 {
        assert t == Repeat('0', z - 1) + "0";
        ParseLeadingZeros(z - 1, "");
        assert t[..|t| - 1] == Repeat('0', z - 1) + "";
      }
    } else {
      ParseLeadingZeros(z, s[..|s| - 1]);
      assert t[..|t| - 1] == Repeat('0', z) + s[..|s| - 1];
    }
  }

  /** `n` copies of `c`. */
  function Repeat(c: char, n: nat): (r: string)
    ensures |r| == n
    ensures forall i :: 0 <= i < n ==> r[i] == c
  {
    seq(n, _ => c)
  }

  /** `s.padStart(width, c)`: `s` itself when already `width` long or longer
      (it never truncates), otherwise `s` after enough copies of `c`. */
  function PadStart(s: string, width: nat, c: char): (r: string)
    ensures |r| == if |s| >= width then |s| else width
    ensures r[|r| - |s|..] == s
    ensures forall i :: 0 <= i < |r| - |s| ==> r[i] == c
  {
    if |s| >= width then s else Repeat(c, width - |s|) + s
  }
}

=== FILE: track_loader.dfy ===
/** The pure part of loading a track file: the features the KML-to-GeoJSON
    converter produced become a track (the last line geometry, swapped to
    latitude first) and waypoints (one per point feature, or synthesised when
    there are none); any failure yields a fixed fallback. */
module TrackLoader {
  import opened Wrappers
  import opened Seqs
  import opened Geo
  import opened Waypoints
  import opened Synthesis

  /** The geometry kinds the loader distinguishes; any other kind is ignored. */
  datatype Geometry =
    | LineString(coordinates: seq<GeoPos>)
    | MultiLineString(lines: seq<seq<GeoPos>>)
    | Point(position: GeoPos)
    | OtherGeometry

  /** A missing name or description is `None`. */
  datatype Properties = Properties(name: Option<string>, description: Option<string>)

  /** A GeoJSON feature; either part may be missing (`null`). */
  datatype Feature = Feature(geometry: Option<Geometry>, properties: Option<Properties>)

  /** What fetching and converting the track file gave: nothing usable (a
      thrown error, such as a network failure rejecting `fetch`), or the
      converter's feature list. Malformed XML throws nothing: `DOMParser`
      returns a document holding a `parsererror` element, and converting it
      gives the feature list of whatever placemarks it still finds. */
  datatype Source = Unavailable | Parsed(features: seq<Feature>)

  /** Why a load fell back. */
  datatype LoadError =
    | SourceThrew            // fetching or converting the file threw
    | MultiLineWithoutLines  // `coordinates[0]` is undefined, so `.map` throws
    | PointWithoutProperties // `feature.properties.name` throws

  /** The loop's two accumulators. */
  datatype Extracted = Extracted(coordinates: seq<LatLng>, points: seq<Waypoint>)

  /** What the loader hands to the map: a track, its waypoints, and whether the
      fallback was used (the page then shows an error message). */
  datatype Loaded = Loaded(track: seq<LatLng>, waypoints: seq<Waypoint>, failed: bool)

  predicate IsLine(f: Feature) {
    f.geometry.Some? && (f.geometry.value.LineString? || f.geometry.value.MultiLineString?)
  }

  predicate IsPoint(f: Feature) {
    f.geometry.Some? && f.geometry.value.Point?
  }

  /** The features on which the loop body throws. */
  predicate Throws(f: Feature) {
    || (f.geometry.Some? && f.geometry.value.MultiLineString? && |f.geometry.value.lines| == 0)
    || (IsPoint(f) && f.properties.None?)
  }

  /** The coordinates a line feature contributes: a line string's own, or the
      first sub-line of a multi-line string. */
  function LineOf(f: Feature): seq<GeoPos>
    requires IsLine(f) && !Throws(f)
  {
    match f.geometry.value
    case LineString(cs) => cs
    case MultiLineString(ls) => ls[0]
  }

  /** JavaScript's `s || fallback` on an optional string: the empty string and a
      missing value both give the fallback. */
  function OrElse(s: Option<string>, fallback: string): string {
    if s.Some? && s.value != "" then s.value else fallback
  }

  /** The waypoint a point feature becomes. */
  function PointWaypoint(at: GeoPos, props: Properties): (w: Waypoint)
    ensures w.position.lat == at.lat && w.position.lng == at.lon
    ensures props.name.None? || props.name == Some("") ==> w.name == "Punkt" && w.kind == Station
    ensures props.name.Some? && props.name.value != "" ==>
      w.name == props.name.value && w.kind == DeterminePointType(props.name.value)
    ensures props.description.None? ==> w.description == ""
    ensures props.description.Some? ==> w.description == props.description.value
  {
    ClassifierExamples();
    Waypoint(ToLatLng(at), OrElse(props.name, "Punkt"), OrElse(props.description, ""),
             DeterminePointType(OrElse(props.name, "")))
  }

  /** The waypoint of a point feature that has properties. */
  function FeatureWaypoint(f: Feature): Waypoint
    requires IsPoint(f) && f.properties.Some?
  {
    PointWaypoint(f.geometry.value.position, f.properties.value)
  }

  /** One iteration of the loop over the features. */
  function Step(acc: Extracted, f: Feature): (r: Result<Extracted, LoadError>)
    ensures r.Failure? <==> Throws(f)
    ensures r.Success? && IsLine(f) ==> r.value.coordinates == SwapAll(LineOf(f))
    ensures r.Success? && !IsLine(f) ==> r.value.coordinates == acc.coordinates
    ensures r.Success? && IsPoint(f) ==> r.value.points == acc.points + [FeatureWaypoint(f)]
    ensures r.Success? && !IsPoint(f) ==> r.value.points == acc.points
  {
    if f.geometry.None? then Success(acc)
    else match f.geometry.value
      case LineString(cs) => Success(acc.(coordinates := SwapAll(cs)))
      case MultiLineString(ls) =>
        if |ls| == 0 then Failure(MultiLineWithoutLines)
        else Success(acc.(coordinates := SwapAll(ls[0])))
      case Point(p) =>
        if f.properties.None? then Failure(PointWithoutProperties)
        else Success(acc.(points := acc.points + [PointWaypoint(p, f.properties.value)]))
      case OtherGeometry => Success(acc)
  }

  /** The loop over all features, in order, from empty accumulators; the first
      throwing feature aborts it. */
  function Extract(fs: seq<Feature>): (r: Result<Extracted, LoadError>)
    ensures r.Success? ==> |r.value.points| <= |fs|
    decreases |fs|
  {
    if |fs| == 0 then Success(Extracted([], []))
    else match Extract(fs[..|fs| - 1])
      case Failure(e) => Failure(e)
      case Success(acc) => Step(acc, fs[|fs| - 1])
  }

  const FallbackTrack: seq<LatLng> := [
    LatLng(49.8546, 19.3438),
    LatLng(49.8776, 19.3092),
    LatLng(49.8658, 19.6753)
  ]

  const FallbackWaypoints: seq<Waypoint> := [
    Waypoint(FallbackTrack[0], "Start", "Punkt początkowy", Start),
    Waypoint(FallbackTrack[1], "Stacja 7", "Stacja drogi krzyżowej", Station),
    Waypoint(FallbackTrack[2], "Koniec", "Punkt końcowy", End)
  ]

  /** `parseKmlTrack` after fetching and converting: the extracted track, the
      extracted points or, when there are none and the track is not empty, the
      synthesised waypoints; the fallback pair on any failure. */
  function LoadTrack(src: Source): (r: Loaded)
    ensures r.failed <==> src.Unavailable? || Extract(src.features).Failure?
    ensures r.failed ==> r.track == FallbackTrack && r.waypoints == FallbackWaypoints
  {
    if src.Unavailable? then Loaded(FallbackTrack, FallbackWaypoints, true)
    else match Extract(src.features)
      case Failure(_) => Loaded(FallbackTrack, FallbackWaypoints, true)
      case Success(acc) =>
        var wps :=
          if |acc.points| == 0 && |acc.coordinates| > 0 then Synthesize(acc.coordinates)
          else acc.points;
        Loaded(acc.coordinates, wps, false)
  }

  // ---- properties of the loop ----

  /** The loop fails exactly when some feature makes its body throw. */
  lemma {:induction false} ExtractFailsIff(fs: seq<Feature>)
    ensures Extract(fs).Failure? <==> exists k :: 0 <= k < |fs| && Throws(fs[k])
    decreases |fs|
  {
    if |fs| > 0 {
      var init := fs[..|fs| - 1];
      ExtractFailsIff(init);
      assert forall k :: 0 <= k < |init| ==> init[k] == fs[k];
      if exists k :: 0 <= k < |fs| && Throws(fs[k]) {
        var k :| 0 <= k < |fs| && Throws(fs[k]);
        if k < |fs| - 1 {
          assert Throws(init[k]);
        }
      }
    }
  }

  /** Without line features the track stays empty. */
  lemma {:induction false} ExtractNoLine(fs: seq<Feature>)
    requires Extract(fs).Success?
    requires forall k :: 0 <= k < |fs| ==> !IsLine(fs[k])
    ensures Extract(fs).value.coordinates == []
    decreases |fs|
  {
    if |fs| > 0 {
      ExtractNoLine(fs[..|fs| - 1]);
    }
  }

  /** The last line feature decides the track: its coordinates (its first
      sub-line for a multi-line string), same length and order, each swapped to
      latitude first. Earlier line features are overwritten. */
  lemma {:induction false} ExtractLastLine(fs: seq<Feature>, k: nat)
    requires Extract(fs).Success?
    requires k < |fs| && IsLine(fs[k])
    requires forall j :: k < j < |fs| ==> !IsLine(fs[j])
    ensures !Throws(fs[k])
    ensures var track := Extract(fs).value.coordinates;
      && |track| == |LineOf(fs[k])|
      && forall i :: 0 <= i < |track| ==>
           track[i].lat == LineOf(fs[k])[i].lat && track[i].lng == LineOf(fs[k])[i].lon
    decreases |fs|
  {
    ExtractFailsIff(fs);
    var init := fs[..|fs| - 1];
    if k < |fs| - 1 {
      assert init[k] == fs[k];
      ExtractLastLine(init, k);
    }
  }

  /** Each point feature gives exactly one waypoint, in feature order: the
      waypoints are the point features, filtered out of the list, made into
      waypoints. */
  lemma {:induction false} ExtractPoints(fs: seq<Feature>)
    requires Extract(fs).Success?
    ensures var pts := Filter(IsPoint, fs);
      var r := Extract(fs).value.points;
      && |r| == |pts|
      && forall i :: 0 <= i < |r| ==>
           pts[i].properties.Some? && r[i] == FeatureWaypoint(pts[i])
    decreases |fs|
  {
    if |fs| > 0 {
      var init, f := fs[..|fs| - 1], fs[|fs| - 1];
      assert init + [f] == fs by {}
      FilterSnoc(IsPoint, init, f);
      assert Extract(init).Success?;
      var acc := Extract(init).value;
      assert Extract(fs) == Step(acc, f);
      ExtractPoints(init);
      if IsPoint(f) {
        PointsSnoc(Filter(IsPoint, init), acc.points, f);
      }
    }
  }

  /** Appending a point feature and its waypoint keeps the two lists in step. */
  lemma PointsSnoc(pts: seq<Feature>, r: seq<Waypoint>, f: Feature)
    requires |r| == |pts| && forall i :: 0 <= i < |pts| ==> IsPoint(pts[i])
    requires forall i :: 0 <= i < |r| ==> pts[i].properties.Some? && r[i] == FeatureWaypoint(pts[i])
    requires IsPoint(f) && f.properties.Some?
    ensures var pts', r' := pts + [f], r + [FeatureWaypoint(f)];
      forall i :: 0 <= i < |r'| ==> pts'[i].properties.Some? && r'[i] == FeatureWaypoint(pts'[i])
  {
  }

  /** Extraction finds points exactly when the features include a point. */
  lemma ExtractHasPointsIff(fs: seq<Feature>)
    requires Extract(fs).Success?
    ensures |Extract(fs).value.points| > 0 <==> exists k :: 0 <= k < |fs| && IsPoint(fs[k])
  {
    ExtractPoints(fs);
    var pts := Filter(IsPoint, fs);
    if exists k :: 0 <= k < |fs| && IsPoint(fs[k]) {
      var k :| 0 <= k < |fs| && IsPoint(fs[k]);
      assert fs[k] in pts;
    } else {
      FilterNone(IsPoint, fs);
    }
  }

  // ---- properties of the whole load ----

  /** When loading succeeds the track is the extracted one; the waypoints are
      exactly the extracted points unless there are none and the track is not
      empty, in which case they are synthesised: start first, end last,
      stations between. */
  lemma LoadSucceeds(fs: seq<Feature>)
    requires forall k :: 0 <= k < |fs| ==> !Throws(fs[k])
    ensures Extract(fs).Success? && !LoadTrack(Parsed(fs)).failed
    ensures var r := LoadTrack(Parsed(fs));
      var acc := Extract(fs).value;
      && r.track == acc.coordinates
      && ((exists k :: 0 <= k < |fs| && IsPoint(fs[k])) || |acc.coordinates| == 0 ==>
            r.waypoints == acc.points)
      && ((forall k :: 0 <= k < |fs| ==> !IsPoint(fs[k])) && |acc.coordinates| > 0 ==>
            && r.waypoints == Synthesize(acc.coordinates)
            && r.waypoints[0].kind == Start
            && r.waypoints[|r.waypoints| - 1].kind == End
            && forall i :: 0 < i < |r.waypoints| - 1 ==> r.waypoints[i].kind == Station)
  {
    ExtractFailsIff(fs);
    ExtractHasPointsIff(fs);
    var acc := Extract(fs).value;
    if |acc.coordinates| > 0 {
      SynthesizeShape(acc.coordinates);
    }
  }

  /** A file with one line string and nothing else: the track has one point per
      coordinate, swapped, and the waypoints are synthesised from it. */
  lemma LoadSingleLine(cs: seq<GeoPos>, props: Option<Properties>)
    requires |cs| > 0
    ensures var r := LoadTrack(Parsed([Feature(Some(LineString(cs)), props)]));
      && !r.failed
      && |r.track| == |cs|
      && (forall i :: 0 <= i < |cs| ==> r.track[i] == ToLatLng(cs[i]))
      && r.waypoints == Synthesize(r.track)
  {
    var fs := [Feature(Some(LineString(cs)), props)];
    assert fs[..|fs| - 1] == [];
    assert Extract(fs) == Success(Extracted(SwapAll(cs), []));
  }

  /** An empty feature list (what a file without placemarks, or an error page,
      converts to) loads as an empty track with no waypoints, and is not a
      failure. */
  lemma LoadNoFeatures()
    ensures LoadTrack(Parsed([])) == Loaded([], [], false)
  {
  }

  /** The fallback: three track points and three waypoints of kinds start,
      station and end placed on them in order. */
  lemma FallbackShape()
    ensures |FallbackTrack| == 3 && |FallbackWaypoints| == 3
    ensures forall i :: 0 <= i < 3 ==> FallbackWaypoints[i].position == FallbackTrack[i]
    ensures FallbackWaypoints[0].kind == Start
    ensures FallbackWaypoints[1].kind == Station
    ensures FallbackWaypoints[2].kind == End
  {
  }
}

=== FILE: waypoints.dfy ===
/** Waypoints on a track and how a named point is classified and drawn. */
module Waypoints {
  import opened Text
  import opened Geo

  /** The waypoint kinds the loader produces. */
  datatype Kind = Start | End | Station

  datatype Waypoint = Waypoint(position: LatLng, name: string, description: string, kind: Kind)

  /** The string tag under which the page stores a kind (`'start'`, ...). */
  function KindTag(k: Kind): string {
    match k
    case Start => "start"
    case End => "end"
    case Station => "station"
  }

  /** The lower-cased name has `word` somewhere in it. */
  ghost predicate Mentions(name: string, word: string) {
    exists i: nat :: OccursAt(LowerStr(name), word, i)
  }

  /** `determinePointType`: a lower-cased name mentioning "start" or "początek"
      is a start, otherwise one mentioning "koniec" or "meta" is an end, and
      every other name is a station. */
  function DeterminePointType(name: string): (k: Kind)
    ensures k == Start <==> Mentions(name, "start") || Mentions(name, "początek")
    ensures k == End <==>
      !(Mentions(name, "start") || Mentions(name, "początek"))
      && (Mentions(name, "koniec") || Mentions(name, "meta"))
  {
    var lower := LowerStr(name);
    ContainsIffOccurs(lower, "start");
    ContainsIffOccurs(lower, "początek");
    ContainsIffOccurs(lower, "koniec");
    ContainsIffOccurs(lower, "meta");
    ClassifyLower(lower)
  }

  /** The keyword tests on an already lower-cased name. */
  function ClassifyLower(lower: string): Kind {
    if Contains(lower, "start") || Contains(lower, "początek") then Start
    else if Contains(lower, "koniec") || Contains(lower, "meta") then End
    else Station
  }

  /** Classification ignores case: names equal after lower-casing get the same
      kind, and a name gets the kind of its lower-cased form. */
  lemma {:induction false} DeterminePointTypeIgnoresCase(a: string, b: string)
    requires LowerStr(a) == LowerStr(b)
    ensures DeterminePointType(a) == DeterminePointType(b)
    ensures DeterminePointType(LowerStr(a)) == DeterminePointType(a)
  {
    LowerStrIdempotent(a);
  }

  /** A start keyword wins over an end keyword in the same name. */
  lemma StartWinsOverEnd(name: string)
    requires Contains(LowerStr(name), "start") || Contains(LowerStr(name), "początek")
    ensures DeterminePointType(name) == Start
  {
  }

  /** The classifier on the names a track file typically carries. */
  lemma ClassifierExamples()
    ensures DeterminePointType("Start") == Start
    ensures DeterminePointType("Koniec trasy") == End
    ensures DeterminePointType("Stacja 5") == Station
    ensures DeterminePointType("") == Station
  {
    assert LowerStr("Start") == "start";
    assert LowerStr("Koniec trasy") == "koniec trasy";
    assert LowerStr("Stacja 5") == "stacja 5";
    assert LowerStr("") == "";
    LowerExamples();
  }

  /** The keyword tests on the lower-cased example names. */
  lemma LowerExamples()
    ensures ClassifyLower("start") == Start
    ensures ClassifyLower("koniec trasy") == End
    ensures ClassifyLower("stacja 5") == Station
    ensures ClassifyLower("") == Station
  {
  }

  /** The marker images: blue, red, gold and green markers and the library's
      default marker. */
  datatype Icon = StartIcon | EndIcon | StationIcon | LocationIcon | DefaultIcon

  /** `getMarkerIcon`: each kind tag has its own icon; any other tag falls back
      to the default marker. */
  function MarkerIcon(tag: string): (icon: Icon)
    ensures icon != LocationIcon
    ensures tag == "start" ==> icon == StartIcon
    ensures tag == "end" ==> icon == EndIcon
    ensures tag == "station" ==> icon == StationIcon
    ensures icon == DefaultIcon <==> tag != "start" && tag != "end" && tag != "station"
  {
    if tag == "start" then StartIcon
    else if tag == "end" then EndIcon
    else if tag == "station" then StationIcon
    else DefaultIcon
  }

  /** Every kind the loader produces gets its own marker, never the default:
      starts are drawn with the start marker, ends with the end marker and
      stations with the station marker. */
  lemma MarkerIconPerKind(k: Kind, k': Kind)
    ensures MarkerIcon(KindTag(k)) != DefaultIcon
    ensures MarkerIcon(KindTag(k)) == StartIcon <==> k == Start
    ensures MarkerIcon(KindTag(k)) == EndIcon <==> k == End
    ensures MarkerIcon(KindTag(k)) == StationIcon <==> k == Station
    ensures k != k' ==> MarkerIcon(KindTag(k)) != MarkerIcon(KindTag(k'))
  {
  }
}

=== FILE: wrappers.dfy ===
/** Optional values and results with an error, as the site's JavaScript uses
    `null`/`undefined` and thrown exceptions. */
module Wrappers {

  /** A value that may be absent (`null` or `undefined` in the site's code). */
  datatype Option<+T> = None | Some(value: T)

  /** Either a value or the error that interrupted its computation. */
  datatype Result<+R, +E> = Success(value: R) | Failure(error: E)
}
